=== FILE: README.md ===
# Sparksee client layer in Dafny

This project models the client-side data-access layer of a service that talks to
the Sparksee graph-database engine over gRPC. Three parts are modelled:

- **The generic repository layer** (`repository/base.py`, module `Base` in `base.dfy`):
  - decoding of the engine's tagged column values (`parse_sparksee_value`);
  - the algebra and Cypher filter builders;
  - the OR-group builder;
  - the positional mapping of rows onto a model's fields;
  - the `query_executor` pipeline (build, execute, map, cardinality rule).
- **The TSP repository** (`repository/tsp.py`, module `Tsp` in `tsp.dfy`):
  - every statement it builds, as the exact text the f-strings produce, line breaks and indentation included;
  - the WHERE clause of `get_recommendations`;
  - the operations run through the executor;
  - the lookup-then-remove operation and the connection check.
- **The session manager** (`session_manager.py`, module `Sessions` in `session_manager.dfy`):
  - `init`, `_create_query`, `create_session`, `begin_transaction`, `commit_transaction`, `rollback_transaction` and `execute_query`, as methods of the class `SparkseeSessionManager`;
  - `session_context`.

The gRPC stub is a class `Stub` that appends every call it receives, with its reply, to a
`trace`. Each reply is chosen nondeterministically, so every contract holds for every
behaviour of the engine. The ordering and "exactly once" facts are stated over that trace.

Supporting files:

- `wire.dfy` holds the protocol message shapes the client reads or builds.
- `strings.dfy` holds Python's `str.join`, the decimal printing of integers with its inverse, and the layout of triple-quoted statements (`Render`).
- `wrappers.dfy` holds `Option`, `Result` and `Outcome`, which stand in for `None` and for raised exceptions.

The code's quirks are modelled as written:

- String values are wrapped in single quotes and nothing inside them is escaped (repository/base.py:52-53, `ChangeQueryString`).
- `zip(..., strict=False)` truncates (repository/base.py:46, `Zip`, `RecommendationRecordDropsType`).
- `session_context` commits even when the block raised (session_manager.py:123-126, `SessionContext`).
- `rollback_transaction` catches nothing (session_manager.py:89-91). So a RollbackTx failure during `begin_transaction` replaces the connection error (session_manager.py:64-74, `BeginTransaction`, `BeginFailureRollsBack`).
- `execute_query` never attempts CloseQuery once RunQuery or GetResultRows failed, and a CloseQuery failure after successful reads makes it raise (session_manager.py:100-115, `NoCloseAfterFailure`).
- The fallback branch of the WHERE clause (repository/tsp.py:217-220) keeps every present group in order. When all three groups are present, it gives the same text as the first branch (repository/tsp.py:213-214, `WhereClauseRule`).
- A bare `WHERE ` arises exactly when `tsp_types` or `countries` is an empty list rather than `None` and no list is non-empty (`WhereClauseBareIff`, `WhereClauseEmptyTypeList`). An empty time-slot list on its own gives no clause at all, because `create_conditions_from_list` turns it into `None` (repository/base.py:59-60, `WhereClauseEmptyIff`).
- The builders' own `size` defaults (repository/tsp.py:91, repository/tsp.py:113 and repository/tsp.py:199) are never used. The decorator's wrapper takes `size` itself (default 1), passes it as `max_rows` and to the cardinality rule, and does not forward it to the builder (repository/base.py:102-113). So a decorated operation returns a single record unless the caller passes `size`.

## Model

| member | source | states |
|---|---|---|
| Base.ParseSparkseeValue | repository/base.py:7-27 | the decoder as a chain of `HasField` tests in the source's order; its properties are the rows that follow |
| Base.ParseFollowsDecodeOrder | repository/base.py:7-27 | decoding returns the payload of the first present field in the order null, int, long, string, timestamp, double, bool, oid, and `None` when no field is present |
| Base.FirstPresentIsFirst | repository/base.py:7-25 | when the field at position k is the first one present, its payload is the decoded value, whatever later fields hold |
| Base.FirstPresentAbsent | repository/base.py:26-27 | with no field present, the decoded value is `None` |
| Base.DecodeEncode | repository/base.py:7-27 | a column value with exactly one field set decodes to that field's payload; int, long and oid all become a Python int |
| Base.Zip | repository/base.py:46 | the pairing has the length of the shorter side (no error on a mismatch), and entry j pairs field j with value j |
| Base.ProcessQueryResponse | repository/base.py:37-49 | one record per row, in row order; record i pairs the declared fields with row i's decoded columns by position, truncated to the shorter |
| Base.ChangeQueryString | repository/base.py:51-53 | the result is the input between two single quotes, with its inside equal to the input (nothing escaped) |
| Base.Specified | repository/base.py:69-70 | one entry per filter whose value is not `None` (`GivenCount` of them) and no other; the filter at call position i is the entry at the number of such filters before it, so call order is kept |
| Base.FilterTermsPositional | repository/base.py:66-77 | there is one term per filter whose value is not `None`, in call order, and term j is built from the j-th such filter |
| Base.TermEmptyIff | repository/base.py:68-77 | a term is empty exactly when its value is neither a string nor an int (a bool counts as an int) |
| Base.AlgebraMatchConditions | repository/base.py:65-82 | the loop builds `AlgebraMatch`: scan when the joined terms are empty, otherwise select on the ` AND `-joined terms |
| Base.CypherMatchConditions | repository/base.py:84-96 | the loop builds `CypherMatch`: the `, `-joined terms of the non-`None` filters |
| Base.AlgebraScanIff | repository/base.py:79-82 | the builder scans the entity exactly when no filter has a value, or the only one has an unsupported value |
| Base.SpecifiedAllNone | repository/base.py:69-70 | with every value `None`, no filter is kept |
| Base.AlgebraAllNoneScans | repository/base.py:65-82 | with every value `None`, the builder gives `GRAPH::SCAN('E')` |
| Base.AlgebraSelectsGivenFilters | repository/base.py:71-82 | with string and int values only, the builder selects on their conjunction; a string gives `'E'.'k' = 'v'`, an int `'E'.'k' = v`, in call order |
| Base.AlgebraSingleString | repository/base.py:71-82 | one string filter gives `GRAPH::SELECT('E'.'k' = 'v')` |
| Base.AlgebraTwoUnsupportedValues | repository/base.py:68-82 | two filters with unsupported values give two empty terms and the text `GRAPH::SELECT( AND )` |
| Base.CypherEmptyIff | repository/base.py:84-96 | the Cypher text is empty exactly when no filter has a value, or the only one has an unsupported value |
| Base.CreateConditionsFromList | repository/base.py:55-63 | the result is `None` exactly when the list is `None` or empty; otherwise it is text that starts with `(` and ends with `)` |
| Base.ConditionsSingle | repository/base.py:62-63 | a one-element list gives `(c='x')` |
| Base.ConditionsSnoc | repository/base.py:62-63 | appending a value inserts ` OR c='x'` before the closing parenthesis, so the terms follow the list order |
| Base.ApplyCardinality | repository/base.py:108-113 | no models gives `None`; `size == 1` with models gives the first model; any other size gives the whole list |
| Base.CardinalityDeliversPrefix | repository/base.py:108-113 | what is handed back is a prefix of the models: all of them unless `size == 1`, at most one otherwise |
| Base.QueryExecutor | repository/base.py:99-117 | the outcome is the one `ExecutorOutcome` reads off the events: the statement runs once through `execute_query` with `max_rows = size`; a failure propagates; otherwise the rows are mapped and the cardinality rule applied |
| Sessions.QueryError | session_manager.py:113-115 | an `RpcError` becomes `GraphDBException("Query")`; any other exception passes through unchanged |
| Sessions.Stub.constructor | session_manager.py:53-55 | a stub over the given channel with no calls recorded |
| Sessions.Stub.NewSession | session_manager.py:59 | records exactly one NewSession call with its reply |
| Sessions.Stub.StatusCall | session_manager.py:66 | records exactly one call that returns nothing, with its outcome |
| Sessions.Stub.RunQuery | session_manager.py:102 | records exactly one RunQuery call with its reply |
| Sessions.Stub.GetResultRows | session_manager.py:103-108 | records exactly one GetResultRows call with its reply |
| Sessions.QuerySuccessOrder | session_manager.py:100-112 | a successful query issued RunQuery, GetResultRows (same query id, `maxRows = max_rows`) and CloseQuery in that order, and returned the rows |
| Sessions.NoCloseAfterFailure | session_manager.py:101-115 | once RunQuery or GetResultRows failed, CloseQuery is never attempted and the call raises |
| Sessions.QueryRunCounts | session_manager.py:100-115 | one query issues exactly one RunQuery, at most one CloseQuery, and no session or transaction calls |
| Sessions.CommitAlwaysEnds | session_manager.py:76-86 | CommitTx is followed by exactly one EndSession whether or not it failed, with no rollback; success needs both calls to succeed |
| Sessions.BeginFailureRollsBack | session_manager.py:64-74 | a failed BeginTx is followed by exactly one RollbackTx and the caller sees an exception, the rollback's own if it failed |
| Sessions.NormaliseDialect | session_manager.py:37-38 | `algebra` and `cypher` are kept as given, and every other query type becomes `algebra` |
| Sessions.CreateQuery | session_manager.py:36-40 | the statement goes in `cypherQuery` exactly when the type is `cypher`, and otherwise in `algebraQuery`, alongside the session |
| Sessions.SparkseeSessionManager.constructor | session_manager.py:24-28 | channel, stub and session all start unset, and no channel has been attempted |
| Sessions.SparkseeSessionManager.Ready | session_manager.py:24-34 | the state `init` leaves behind: channel, stub and session set, and the stub built over that channel; every operation after `init` requires it |
| Sessions.SparkseeSessionManager.CreateAioChannel | session_manager.py:42-51 | a failure is a connection error (for `RpcError`) or the original exception |
| Sessions.SparkseeSessionManager.CreateSession | session_manager.py:57-62 | one NewSession call; success stores the session; any failure raises `GraphDBException("Session")` and leaves the session unchanged |
| Sessions.SparkseeSessionManager.Init | session_manager.py:30-34 | attempts the channel exactly once (a ghost counter records it), sets the channel, then a fresh stub over it, then the session; a channel failure raises the connection error or the original exception and changes nothing; a session failure raises after channel and stub are set |
| Sessions.SparkseeSessionManager.BeginTransaction | session_manager.py:64-74 | BeginTx, and RollbackTx when it fails, as `BeginRun` describes |
| Sessions.SparkseeSessionManager.CommitTransaction | session_manager.py:76-86 | CommitTx then EndSession in every case; an EndSession failure replaces the commit's error |
| Sessions.SparkseeSessionManager.RollbackTransaction | session_manager.py:89-91 | exactly one RollbackTx call, whose failure propagates unchanged |
| Sessions.SparkseeSessionManager.ExecuteQuery | session_manager.py:93-115 | the new events are one RunQuery, GetResultRows, CloseQuery sequence cut short by the first failure, and the result is the one `QueryOutcome` reads off them; `query_type` defaults to `algebra` and `max_rows` to 10 |
| Sessions.CommitsExactlyOnce | session_manager.py:118-126 | a unit of work that began commits exactly once, ends its session exactly once and never rolls back |
| Sessions.RunBlockAndCommit | session_manager.py:122-126 | after a successful begin, the block's queries and then CommitTx and EndSession make a resolved trace, whatever the block raised; when commit and end succeed, the caller gets exactly what the block returned or raised (`BlockOutcome`); a commit or end failure replaces it |
| Sessions.SessionContext | session_manager.py:118-126 | the channel is attempted exactly once, and its failure raises the connection error or the original exception; a failed session raises the session error with nothing else called; an opened session is always followed by BeginTx on it; a failed begin is rolled back, never committed, and raises the connection error or the rollback's failure; once begun, the trace is NewSession, BeginTx, query calls only, CommitTx, EndSession, even when the block raised; when commit and end succeed, the caller gets what the block returned or raised (`BlockOutcome`), and a commit or end failure replaces it |
| Sessions.RunBlock | session_manager.py:123-124 | the block's requests go through `execute_query` in order and nothing else is called; the first failed query stops the block and is what it raises; otherwise the user exception if there is one, else the rows of every request in order (`BlockOutcome`) |
| Sessions.BlockSuccessRows | session_manager.py:123-124 | a block that returned rows raised no exception of its own and has one result per request, each the rows of that request's query |
| Sessions.StepsComplete | session_manager.py:123-124 | when every request succeeded, the block gives their rows in order, or the user exception if one is raised |
| Sessions.StepsThenFailure | session_manager.py:123-124 | when the requests before request i succeeded and request i failed, the block raises that failure and runs nothing after it |
| Sessions.StepsSnoc | session_manager.py:123-124 | one more successful request adds its rows at the end of the block's results |
| Strings.DecimalRoundTrip | repository/tsp.py:149 | the decimal text Python prints for an integer id reads back as that id |
| Strings.LongLiteralInjective | repository/tsp.py:149 | distinct ids give distinct `<id>L` literals |
| Tsp.CreateTspStmt | repository/tsp.py:30-44 | the statement text line by line as the f-string writes it, with id, name and type name spliced in |
| Tsp.AddCountryToTspStmt | repository/tsp.py:54-64 | the statement text as the f-string writes it, indented by 12, edge `@link_tsp_and_country` labelled `OPERATES_IN` |
| Tsp.AddTimeSlotToTspStmt | repository/tsp.py:74-84 | the statement text as the f-string writes it, indented by 16, edge variable `@link_tsp_and_country` (as the source names it) labelled `HAS_AVAILABILITY` |
| Tsp.AddDataRequirementToTspStmt | repository/tsp.py:160-170 | the statement text as the f-string writes it, indented by 8, edge `@link_tsp_and_data_req` labelled `CAN_PROVIDE` |
| Tsp.GetTspStmt | repository/tsp.py:94-103 | the statement text as the f-string writes it, with the algebra selection of the filters spliced in |
| Tsp.GetListOfTspByTypeStmt | repository/tsp.py:115-120 | the Cypher text as the f-string writes it, trailing spaces included, with the type name spliced in |
| Tsp.UpdateTspByIdStmt | repository/tsp.py:130-141 | the statement text as the f-string writes it, the empty line included, with the long id and printed name spliced in |
| Tsp.DeleteTspByIdStmt | repository/tsp.py:148-150 | the one-line removal of the node with the given long id |
| Tsp.RemoveLookupStmt | repository/tsp.py:179-181 | the one-line `CAN_PROVIDE` connection lookup of the two long ids, indented by 12 |
| Tsp.RemoveEdgeStmt | repository/tsp.py:189 | the removal of the decoded oid, printed as Python prints it with `L` appended |
| Tsp.CheckLookupStmt | repository/tsp.py:239-241 | the same lookup, indented by 20 |
| Tsp.GetRecommendationsStmt | repository/tsp.py:222-230 | the Cypher text as the f-string writes it, with the WHERE clause on its own line |
| Tsp.RefetchSelectsId | repository/tsp.py:37 | the re-fetch of the new node is `GRAPH::SELECT('TSP'.'id' = '<_id>')` |
| Tsp.CreateTspInsertsAndRefetches | repository/tsp.py:30-44 | the statement inserts the given id and name, the row followed by the `)),` that closes `VALUES(` and `INSERT_NODES(`, selects the type by its name, and fetches the node back by id |
| Tsp.LinkStmtNamesIdsAndLabel | repository/tsp.py:54-64 | a link statement names both ids as long literals in order, inserts an edge with its label and reads the TSP node back by its long id |
| Tsp.AddCountryLinksIds | repository/tsp.py:54-64 | `add_country_to_tsp` links the two ids with `OPERATES_IN` |
| Tsp.AddTimeSlotLinksIds | repository/tsp.py:74-84 | `add_time_slot_to_tsp` links the two ids with `HAS_AVAILABILITY` |
| Tsp.AddDataRequirementLinksIds | repository/tsp.py:160-170 | `add_data_requirement_to_tsp` links the two ids with `CAN_PROVIDE` |
| Tsp.GetTspHoldsSelection | repository/tsp.py:94-103 | the `get_tsp` statement holds the selection built from its filters |
| Tsp.GetTspWithoutFiltersScans | repository/tsp.py:96 | with no filter given a value, `get_tsp` scans `'TSP'` |
| Tsp.ListByTypeMatchesName | repository/tsp.py:115-120 | the type node is matched by the name exactly as given |
| Tsp.UpdateAddressesNodeById | repository/tsp.py:130-141 | the update's new values pair the node's long id with the name as printed (`None` when absent), and the node is read back by the same long id |
| Tsp.RemoveNodeTextInjective | repository/tsp.py:149 | the node removal text determines the id it removes |
| Tsp.DeleteHoldsRemoval | repository/tsp.py:148-150 | the deletion statement holds the removal of the node with the given id |
| Tsp.DeleteStmtInjective | repository/tsp.py:148-150 | the deletion statement determines the node id it deletes |
| Tsp.LookupsAgree | repository/tsp.py:179-181 | removal and the connection check (lines 239-241) look up the same `CAN_PROVIDE` connection of the two ids |
| Tsp.RemoveEdgeIsNodeRemoval | repository/tsp.py:187-189 | for an integer oid, the edge removal is the same removal text `delete_tsp_by_id` uses |
| Tsp.RemoveQueriesOnceOrTwice | repository/tsp.py:179-190 | the lookup runs first; no session or transaction calls are made; a second query runs exactly when the lookup found an edge |
| Tsp.RemoveTargetsFoundEdge | repository/tsp.py:187-190 | the second query removes exactly the edge the first column of the first row decodes to |
| Tsp.RemoveDataRequirementFromTsp | repository/tsp.py:173-190 | the outcome is the one `RemoveOutcome` reads off the events: lookup with `max_rows = 1`; a failure propagates; no rows returns quietly; an empty first row raises `IndexError`; otherwise one removal of the decoded oid, whose failure propagates |
| Tsp.CheckTspDataReqConnection | repository/tsp.py:233-250 | the outcome is the one `CheckOutcome` reads off the events: the lookup runs with `max_rows = 1`; a failure propagates; otherwise the answer is whether any row came back |
| Tsp.CheckTrueIffRows | repository/tsp.py:248-250 | the check says `True` exactly when all three query calls succeeded and GetResultRows returned a row |
| Tsp.WhereClause | repository/tsp.py:201-220 | the three branches as written, over the three `create_conditions_from_list` results; its properties are the rows that follow |
| Tsp.PresentConditions | repository/tsp.py:218-219 | exactly the non-empty conditions are kept, in their order: one entry per present condition, and condition i is the entry at the number of present conditions before it |
| Tsp.PresentConditionsEmptyIff | repository/tsp.py:218-219 | no condition survives exactly when none of the three lists is non-empty |
| Tsp.WhereClauseRule | repository/tsp.py:213-220 | all three branches follow one rule: empty when types and countries are `None` and no time slot is given, otherwise `WHERE` and the present groups joined by ` AND ` in the order types, countries, time slots |
| Tsp.WhereClauseAllGiven | repository/tsp.py:213-214 | with all three groups given, the first branch's text is `WHERE` and the three groups joined by ` AND ` |
| Tsp.WhereClauseEmptyIff | repository/tsp.py:215-216 | the clause is empty exactly when types and countries are `None` and no time slot is given |
| Tsp.WhereClauseBareIff | repository/tsp.py:217-220 | the clause is a bare `WHERE ` exactly when `tsp_types` or `countries` is not `None` and no list is non-empty |
| Tsp.WhereClauseSingleType | repository/tsp.py:201-220 | one type with the other lists `None` gives only the type group |
| Tsp.WhereClauseEmptyTypeList | repository/tsp.py:201-220 | an empty type list with the other lists `None` gives a bare `WHERE ` |
| Tsp.RecommendationsCarryWhereClause | repository/tsp.py:222-230 | the recommendation statement holds its WHERE clause |
| Tsp.RecommendationRecordDropsType | repository/tsp.py:226-229 | a four-column recommendation row maps onto the three model fields; the type column is dropped |
| Tsp.CreateTsp | repository/tsp.py:21-45 | `create_tsp` through the executor, algebra dialect |
| Tsp.AddCountryToTsp | repository/tsp.py:47-65 | `add_country_to_tsp` through the executor |
| Tsp.AddTimeSlotToTsp | repository/tsp.py:67-85 | `add_time_slot_to_tsp` through the executor |
| Tsp.GetTsp | repository/tsp.py:87-105 | `get_tsp` through the executor; the filters reach the builder, `size` does not |
| Tsp.GetListOfTspByType | repository/tsp.py:107-121 | `get_list_of_tsp_by_type` through the executor, Cypher dialect |
| Tsp.UpdateTspById | repository/tsp.py:123-142 | `update_tsp_by_id` through the executor |
| Tsp.DeleteTspById | repository/tsp.py:144-151 | `delete_tsp_by_id` through the executor |
| Tsp.AddDataRequirementToTsp | repository/tsp.py:153-171 | `add_data_requirement_to_tsp` through the executor |
| Tsp.GetRecommendations | repository/tsp.py:192-231 | `get_recommendations` through the executor, Cypher dialect |

## Left out

- The gRPC channel, the protobuf classes and the stub's transport are not modelled. The stub is an abstract recorder of calls whose replies are arbitrary. The channel target and gRPC options from the configuration are not modelled.
- async/await scheduling is not modelled. Calls are sequential.
- loguru logging is not modelled. The "cannot remove" log in `remove_data_requirement_from_tsp` is a quiet return.
- pydantic validation is not modelled. A model is its ordered list of field names, and a record is the list of (field, value) pairs passed to it. Validation errors, type coercion, and the collapsing of duplicate keys in the `dict` are left out.
- `Timestamp.ToDatetime()` and floating-point payloads are opaque values. Each carries the text Python prints for it.
- The engine's meaning of the algebra and Cypher statements is not modelled. Only the text is.
- Base.ParseSparkseeValue: `HasField` on an unset `nullValue` is read as the boolean flag being false. The protobuf one-of semantics beyond "which fields are set" are not modelled.
- Sessions.SessionContext: the caller's block is modelled as a list of statements run through `execute_query`, plus an optional exception raised after them. Arbitrary Python code inside the block is not modelled.
- Sessions.SparkseeSessionManager.ExecuteQuery, Sessions.SparkseeSessionManager.BeginTransaction, Sessions.SparkseeSessionManager.CommitTransaction and Sessions.SparkseeSessionManager.RollbackTransaction require an initialised manager (`Ready`), and Sessions.SparkseeSessionManager.CreateSession requires a stub. Calling them before `init` fails in Python with an attribute error on the unset field, which is not modelled.
- `get_grpc_stub` is modelled inside `Init` as the creation of a fresh `Stub` over the channel.
- Only the TSP repository's statements are modelled. The other repositories and the FastAPI layer are not part of this model.

=== FILE: base.dfy ===
/** The generic repository layer (repository/base.py): decoding of column values,
    statement text built from keyword filters, mapping rows onto a model's fields,
    and the build, execute, map and cardinality pipeline every operation goes through. */
module Base {

  import opened Wrappers
  import opened Strings
  import opened Wire
  import opened Sessions

  // ---------------------------------------------------------------------------
  // parse_sparksee_value

  /** A Python value produced by decoding. `int`, `long` and `oid` payloads all
      become Python `int`s. */
  datatype PyValue =
    | PyNone
    | PyInt(i: int)
    | PyStr(s: string)
    | PyDatetime(ts: Timestamp)
    | PyFloat(d: Double)
    | PyBool(b: bool)

  /** The fields of a column value. */
  datatype Field = NullField | IntField | LongField | StringField | TimestampField | DoubleField | BoolField | OidField

  /** The order in which the decoder probes the fields. */
  const DecodeOrder: seq<Field> :=
    [NullField, IntField, LongField, StringField, TimestampField, DoubleField, BoolField, OidField]

  /** `value.HasField(f)`. */
  predicate HasField(v: ColumnValue, f: Field)
  {
    match f
    case NullField => v.nullValue
    case IntField => v.intValue.Some?
    case LongField => v.longValue.Some?
    case StringField => v.stringValue.Some?
    case TimestampField => v.timestampValue.Some?
    case DoubleField => v.doubleValue.Some?
    case BoolField => v.boolValue.Some?
    case OidField => v.oidValue.Some?
  }

  /** The Python value a present field carries. */
  function Payload(v: ColumnValue, f: Field): PyValue
    requires HasField(v, f)
  {
    match f
    case NullField => PyNone
    case IntField => PyInt(v.intValue.value)
    case LongField => PyInt(v.longValue.value)
    case StringField => PyStr(v.stringValue.value)
    case TimestampField => PyDatetime(v.timestampValue.value)
    case DoubleField => PyFloat(v.doubleValue.value)
    case BoolField => PyBool(v.boolValue.value)
    case OidField => PyInt(v.oidValue.value)
  }

  /** The payload of the first field of `order` that is present in `v`, or
      `None` when none is. */
  function FirstPresent(v: ColumnValue, order: seq<Field>): PyValue
  {
    if order == [] then PyNone
    else if HasField(v, order[0]) then Payload(v, order[0])
    else FirstPresent(v, order[1..])
  }

  /** When the field at position `k` is the first present one, its payload is the result. */
  lemma {:induction false} FirstPresentIsFirst(v: ColumnValue, order: seq<Field>, k: nat)
    requires k < |order| && HasField(v, order[k])
    requires forall j :: 0 <= j < k ==> !HasField(v, order[j])
    ensures FirstPresent(v, order) == Payload(v, order[k])
  {
    if k > 0 {
      FirstPresentIsFirst(v, order[1..], k - 1);
    }
  }

  /** When no field of `order` is present, the result is `None`. */
  lemma {:induction false} FirstPresentAbsent(v: ColumnValue, order: seq<Field>)
    requires forall j :: 0 <= j < |order| ==> !HasField(v, order[j])
    ensures FirstPresent(v, order) == PyNone
  {
    if order != [] {
      FirstPresentAbsent(v, order[1..]);
    }
  }

  /** `parse_sparksee_value`: the payload of the first present field in
      `DecodeOrder`, or `None` when no field is present. */
  function ParseSparkseeValue(v: ColumnValue): PyValue
  {
    if v.nullValue then PyNone
    else if v.intValue.Some? then PyInt(v.intValue.value)
    else if v.longValue.Some? then PyInt(v.longValue.value)
    else if v.stringValue.Some? then PyStr(v.stringValue.value)
    else if v.timestampValue.Some? then PyDatetime(v.timestampValue.value)
    else if v.doubleValue.Some? then PyFloat(v.doubleValue.value)
    else if v.boolValue.Some? then PyBool(v.boolValue.value)
    else if v.oidValue.Some? then PyInt(v.oidValue.value)
    else PyNone
  }

  /** The decoder's chain of tests is the first-present rule over `DecodeOrder`. */
  lemma ParseFollowsDecodeOrder(v: ColumnValue)
    ensures ParseSparkseeValue(v) == FirstPresent(v, DecodeOrder)
  {
    var o := DecodeOrder;
    if v.nullValue {
      FirstPresentIsFirst(v, o, 0);
    } else if v.intValue.Some? {
      FirstPresentIsFirst(v, o, 1);
    } else if v.longValue.Some? {
      FirstPresentIsFirst(v, o, 2);
    } else if v.stringValue.Some? {
      FirstPresentIsFirst(v, o, 3);
    } else if v.timestampValue.Some? {
      FirstPresentIsFirst(v, o, 4);
    } else if v.doubleValue.Some? {
      FirstPresentIsFirst(v, o, 5);
    } else if v.boolValue.Some? {
      FirstPresentIsFirst(v, o, 6);
    } else if v.oidValue.Some? {
      FirstPresentIsFirst(v, o, 7);
    } else {
      FirstPresentAbsent(v, o);
    }
  }

  /** A column value as the engine means it: exactly one variant. */
  datatype Tagged =
    | TNull
    | TInt(i: int)
    | TLong(i: int)
    | TString(s: string)
    | TTimestamp(ts: Timestamp)
    | TDouble(d: Double)
    | TBool(b: bool)
    | TOid(i: int)

  /** The wire form of a variant: that one field set, all others absent. */
  function Encode(t: Tagged): ColumnValue
  {
    var none := ColumnValue(false, None, None, None, None, None, None, None);
    match t
    case TNull => none.(nullValue := true)
    case TInt(i) => none.(intValue := Some(i))
    case TLong(i) => none.(longValue := Some(i))
    case TString(s) => none.(stringValue := Some(s))
    case TTimestamp(ts) => none.(timestampValue := Some(ts))
    case TDouble(d) => none.(doubleValue := Some(d))
    case TBool(b) => none.(boolValue := Some(b))
    case TOid(i) => none.(oidValue := Some(i))
  }

  /** The Python value each variant stands for. */
  function Native(t: Tagged): PyValue
  {
    match t
    case TNull => PyNone
    case TInt(i) => PyInt(i)
    case TLong(i) => PyInt(i)
    case TString(s) => PyStr(s)
    case TTimestamp(ts) => PyDatetime(ts)
    case TDouble(d) => PyFloat(d)
    case TBool(b) => PyBool(b)
    case TOid(i) => PyInt(i)
  }

  /** On well-formed values (one field set) decoding dispatches on the variant,
      whatever its place in the probing order. */
  lemma DecodeEncode(t: Tagged)
    ensures ParseSparkseeValue(Encode(t)) == Native(t)
  {
  }

  /** What `str()` or an f-string prints for a decoded value. */
  function PyText(v: PyValue): string
  {
    match v
    case PyNone => "None"
    case PyInt(i) => DecimalString(i)
    case PyStr(s) => s
    case PyDatetime(ts) => ts.printed
    case PyFloat(d) => d.printed
    case PyBool(b) => if b then "True" else "False"
  }

  // ---------------------------------------------------------------------------
  // process_query_response

  /** The keyword arguments a model is constructed from, in field order. */
  type Record = seq<(string, PyValue)>

  /** The decoded column values of one row. */
  function DecodeRow(row: Row): seq<PyValue>
  {
    seq(|row.columnValues|, i requires 0 <= i < |row.columnValues| => ParseSparkseeValue(row.columnValues[i]))
  }

  /** `zip(keys, values, strict=False)`: pairs up to the shorter length. */
  function Zip(keys: seq<string>, values: seq<PyValue>): (r: Record)
    ensures |r| == if |keys| <= |values| then |keys| else |values|
    ensures forall j :: 0 <= j < |r| ==> r[j] == (keys[j], values[j])
  {
    if keys == [] || values == [] then [] else [(keys[0], values[0])] + Zip(keys[1..], values[1..])
  }

  /** The models built from `rows`: one record per row, in row order, each
      pairing the row's decoded columns with the declared fields by position. */
  function RowModels(fields: seq<string>, rows: seq<Row>): seq<Record>
  {
    seq(|rows|, i requires 0 <= i < |rows| => Zip(fields, DecodeRow(rows[i])))
  }

  /** `process_query_response` for a model whose fields are `fields`. */
  method ProcessQueryResponse(fields: seq<string>, response: ResultRows) returns (models: seq<Record>)
    ensures |models| == |response.rows|
    ensures forall i :: 0 <= i < |response.rows| ==>
              |models[i]| == (if |fields| <= |response.rows[i].columnValues| then |fields| else |response.rows[i].columnValues|) &&
              forall j :: 0 <= j < |models[i]| ==>
                models[i][j] == (fields[j], ParseSparkseeValue(response.rows[i].columnValues[j]))
    ensures models == RowModels(fields, response.rows)
  {
    models := [];
    for i := 0 to |response.rows|
      invariant models == RowModels(fields, response.rows[..i])
    {
      var columnValues := DecodeRow(response.rows[i]);
      models := models + [Zip(fields, columnValues)];
    }
    assert response.rows[..|response.rows|] == response.rows;
  }

  // ---------------------------------------------------------------------------
  // Statement text from keyword filters

  /** A keyword argument's value, as the builders tell values apart. */
  datatype PyArg =
    | ArgNone
    | ArgStr(s: string)
    | ArgInt(i: int)
    | ArgBool(b: bool)     // a Python bool is an int, so it takes the int branch
    | ArgOther             // any other value

  /** Keyword arguments, in call order. */
  type Kwargs = seq<(string, PyArg)>

  /** `_change_query_string`: wraps the text in single quotes and escapes nothing. */
  function ChangeQueryString(s: string): (r: string)
    ensures |r| == |s| + 2 && r[0] == '\'' && r[|r| - 1] == '\''
    ensures r[1..|r| - 1] == s
  {
    "'" + s + "'"
  }

  /** The two dialects' filter terms: `'E'.'k' = v` and `k: v`. */
  datatype TermStyle = AlgebraStyle(entity: string) | CypherStyle

  /** The text an f-string prints for an int or bool value. */
  function NumberText(a: PyArg): string
    requires a.ArgInt? || a.ArgBool?
  {
    if a.ArgInt? then DecimalString(a.i) else if a.b then "True" else "False"
  }

  /** The term for one filter whose value is not `None`; other values give "". */
  function Term(style: TermStyle, key: string, value: PyArg): string
    requires !value.ArgNone?
  {
    var lhs := match style
      case AlgebraStyle(e) => "'" + e + "'.'" + key + "' = "
      case CypherStyle => key + ": ";
    match value
    case ArgStr(s) => lhs + ChangeQueryString(s)
    case ArgInt(_) => lhs + NumberText(value)
    case ArgBool(_) => lhs + NumberText(value)
    case ArgOther => ""
  }

  /** How many filters are given a value other than `None`. */
  function GivenCount(kwargs: Kwargs): nat
  {
    if kwargs == [] then 0
    else GivenCount(kwargs[..|kwargs| - 1]) + (if kwargs[|kwargs| - 1].1.ArgNone? then 0 else 1)
  }

  /** The filters whose value is not `None`, in call order: there is one entry
      per such filter, and the filter at index `i` lands at the position given
      by the number of such filters before it. */
  function Specified(kwargs: Kwargs): (r: Kwargs)
    ensures forall j :: 0 <= j < |r| ==> !r[j].1.ArgNone?
    ensures |r| == GivenCount(kwargs)
    ensures forall i :: 0 <= i < |kwargs| && !kwargs[i].1.ArgNone? ==>
              GivenCount(kwargs[..i]) < |r| && r[GivenCount(kwargs[..i])] == kwargs[i]
  {
    if kwargs == [] then []
    else
      var init, last := kwargs[..|kwargs| - 1], kwargs[|kwargs| - 1];
      assert forall i :: 0 <= i < |init| ==> init[..i] == kwargs[..i];
      Specified(init) + (if last.1.ArgNone? then [] else [last])
  }

  /** The `list_of_filters` the builder loops accumulate. */
  function FilterTerms(style: TermStyle, kwargs: Kwargs): seq<string>
  {
    if kwargs == [] then []
    else
      var last := kwargs[|kwargs| - 1];
      FilterTerms(style, kwargs[..|kwargs| - 1]) + (if last.1.ArgNone? then [] else [Term(style, last.0, last.1)])
  }

  /** One term per filter whose value is not `None`, in call order. */
  lemma {:induction false} FilterTermsPositional(style: TermStyle, kwargs: Kwargs)
    ensures |FilterTerms(style, kwargs)| == |Specified(kwargs)|
    ensures forall j :: 0 <= j < |Specified(kwargs)| ==>
              FilterTerms(style, kwargs)[j] == Term(style, Specified(kwargs)[j].0, Specified(kwargs)[j].1)
  {
    if kwargs != [] {
      FilterTermsPositional(style, kwargs[..|kwargs| - 1]);
    }
  }

  /** Only filters whose value is neither a string nor a number give an empty term. */
  lemma TermEmptyIff(style: TermStyle, key: string, value: PyArg)
    requires !value.ArgNone?
    ensures Term(style, key, value) == "" <==> value.ArgOther?
  {
    if !value.ArgOther? {
      assert |Term(style, key, value)| > 0;
    }
  }

  /** The algebra selection for keyword filters: a scan of the entity when the
      joined filter text is empty, a selection otherwise. */
  function AlgebraMatch(entity: string, kwargs: Kwargs): string
  {
    var conditions := Join(" AND ", FilterTerms(AlgebraStyle(entity), kwargs));
    if conditions == "" then "GRAPH::SCAN('" + entity + "')" else "GRAPH::SELECT(" + conditions + ")"
  }

  /** The Cypher property map for keyword filters. */
  function CypherMatch(kwargs: Kwargs): string
  {
    Join(", ", FilterTerms(CypherStyle, kwargs))
  }

  /** `algebra_match_conditions`. */
  method AlgebraMatchConditions(entity: string, kwargs: Kwargs) returns (stmt: string)
    ensures stmt == AlgebraMatch(entity, kwargs)
  {
    var listOfFilters: seq<string> := [];
    for i := 0 to |kwargs|
      invariant listOfFilters == FilterTerms(AlgebraStyle(entity), kwargs[..i])
    {
      assert kwargs[..i + 1][..i] == kwargs[..i];
      var (key, value) := kwargs[i];
      if value.ArgNone? {
        continue;
      }
      var updated := "";
      if value.ArgStr? {
        updated := "'" + entity + "'.'" + key + "' = " + ChangeQueryString(value.s);
      } else if value.ArgInt? || value.ArgBool? {
        updated := "'" + entity + "'.'" + key + "' = " + NumberText(value);
      }
      listOfFilters := listOfFilters + [updated];
    }
    assert kwargs[..|kwargs|] == kwargs;
    var matchConditions := Join(" AND ", listOfFilters);
    if matchConditions == "" {
      return "GRAPH::SCAN('" + entity + "')";
    }
    stmt := "GRAPH::SELECT(" + matchConditions + ")";
  }

  /** `cypher_match_conditions`. */
  method CypherMatchConditions(kwargs: Kwargs) returns (stmt: string)
    ensures stmt == CypherMatch(kwargs)
  {
    var listOfFilters: seq<string> := [];
    for i := 0 to |kwargs|
      invariant listOfFilters == FilterTerms(CypherStyle, kwargs[..i])
    {
      assert kwargs[..i + 1][..i] == kwargs[..i];
      var (key, value) := kwargs[i];
      if value.ArgNone? {
        continue;
      }
      var updated := "";
      if value.ArgStr? {
        updated := key + ": " + ChangeQueryString(value.s);
      } else if value.ArgInt? || value.ArgBool? {
        updated := key + ": " + NumberText(value);
      }
      listOfFilters := listOfFilters + [updated];
    }
    assert kwargs[..|kwargs|] == kwargs;
    stmt := Join(", ", listOfFilters);
  }

  /** The algebra builder scans exactly when no filter is given a value, or when
      the only one given is neither a string nor a number. */
  lemma AlgebraScanIff(entity: string, kwargs: Kwargs)
    ensures AlgebraMatch(entity, kwargs) == "GRAPH::SCAN('" + entity + "')" <==>
              |Specified(kwargs)| == 0 || (|Specified(kwargs)| == 1 && Specified(kwargs)[0].1.ArgOther?)
  {
    var style := AlgebraStyle(entity);
    var terms := FilterTerms(style, kwargs);
    FilterTermsPositional(style, kwargs);
    JoinEmptyIff(" AND ", terms);
    if |terms| == 1 {
      TermEmptyIff(style, Specified(kwargs)[0].0, Specified(kwargs)[0].1);
    }
    var conditions := Join(" AND ", terms);
    if conditions != "" {
      var selected := "GRAPH::SELECT(" + conditions + ")";
      assert selected[8] == 'E';
      assert ("GRAPH::SCAN('" + entity + "')")[8] == 'C';
    }
  }

  /** With every value `None`, the algebra builder scans the entity. */
  lemma AlgebraAllNoneScans(entity: string, kwargs: Kwargs)
    requires forall j :: 0 <= j < |kwargs| ==> kwargs[j].1.ArgNone?
    ensures AlgebraMatch(entity, kwargs) == "GRAPH::SCAN('" + entity + "')"
  {
    SpecifiedAllNone(kwargs);
    AlgebraScanIff(entity, kwargs);
  }

  lemma {:induction false} SpecifiedAllNone(kwargs: Kwargs)
    requires forall j :: 0 <= j < |kwargs| ==> kwargs[j].1.ArgNone?
    ensures Specified(kwargs) == []
  {
    if kwargs != [] {
      SpecifiedAllNone(kwargs[..|kwargs| - 1]);
    }
  }

  /** Filters given string or number values give a conjunction of equality
      terms, one per filter, in call order. */
  lemma AlgebraSelectsGivenFilters(entity: string, kwargs: Kwargs)
    requires |Specified(kwargs)| > 0
    requires forall j :: 0 <= j < |Specified(kwargs)| ==> !Specified(kwargs)[j].1.ArgOther?
    ensures |FilterTerms(AlgebraStyle(entity), kwargs)| == |Specified(kwargs)|
    ensures AlgebraMatch(entity, kwargs) ==
              "GRAPH::SELECT(" + Join(" AND ", FilterTerms(AlgebraStyle(entity), kwargs)) + ")"
    ensures forall j :: 0 <= j < |Specified(kwargs)| ==>
              FilterTerms(AlgebraStyle(entity), kwargs)[j] ==
                "'" + entity + "'.'" + Specified(kwargs)[j].0 + "' = " +
                (if Specified(kwargs)[j].1.ArgStr? then "'" + Specified(kwargs)[j].1.s + "'" else NumberText(Specified(kwargs)[j].1))
  {
    var style := AlgebraStyle(entity);
    FilterTermsPositional(style, kwargs);
    var first := Specified(kwargs)[0];
    TermEmptyIff(style, first.0, first.1);
    JoinNonEmpty(" AND ", FilterTerms(style, kwargs));
  }

  /** A single string filter selects on that one property, quoted as given. */
  lemma AlgebraSingleString(entity: string, key: string, value: string)
    ensures AlgebraMatch(entity, [(key, ArgStr(value))]) ==
              "GRAPH::SELECT('" + entity + "'.'" + key + "' = '" + value + "')"
  {
    var kwargs := [(key, ArgStr(value))];
    var style := AlgebraStyle(entity);
    var lhs := "'" + entity + "'.'" + key + "' = ";
    var term := lhs + ChangeQueryString(value);
    assert kwargs[..0] == [];
    assert FilterTerms(style, kwargs) == [term];
    assert Join(" AND ", [term]) == term;
    assert |term| > 0;
    assert AlgebraMatch(entity, kwargs) == "GRAPH::SELECT(" + term + ")";
    assert lhs + ("'" + value + "'") == lhs + "'" + value + "'";
  }

  /** Two filters whose values are neither strings nor numbers give two empty
      terms, and the selection is over the bare separator. */
  lemma AlgebraTwoUnsupportedValues(entity: string, k1: string, k2: string)
    ensures AlgebraMatch(entity, [(k1, ArgOther), (k2, ArgOther)]) == "GRAPH::SELECT( AND )"
  {
    var kwargs := [(k1, ArgOther), (k2, ArgOther)];
    assert kwargs[..1] == [(k1, ArgOther)];
    assert kwargs[..1][..0] == [];
    var style := AlgebraStyle(entity);
    assert FilterTerms(style, kwargs[..1][..0]) == [];
    assert FilterTerms(style, kwargs[..1]) == [""];
    assert FilterTerms(style, kwargs) == ["", ""];
    assert Join(" AND ", ["", ""]) == " AND ";
  }

  /** The Cypher builder gives the empty text exactly when no filter is given a
      value, or when the only one given is neither a string nor a number. */
  lemma CypherEmptyIff(kwargs: Kwargs)
    ensures CypherMatch(kwargs) == "" <==>
              |Specified(kwargs)| == 0 || (|Specified(kwargs)| == 1 && Specified(kwargs)[0].1.ArgOther?)
  {
    FilterTermsPositional(CypherStyle, kwargs);
    JoinEmptyIff(", ", FilterTerms(CypherStyle, kwargs));
    if |Specified(kwargs)| == 1 {
      TermEmptyIff(CypherStyle, Specified(kwargs)[0].0, Specified(kwargs)[0].1);
    }
  }

  // ---------------------------------------------------------------------------
  // create_conditions_from_list

  /** One equality term per candidate value, in list order. */
  function OrTerms(condition: string, values: seq<string>): seq<string>
  {
    seq(|values|, i requires 0 <= i < |values| => condition + "='" + values[i] + "'")
  }

  /** `create_conditions_from_list`: `None` for a missing or empty list, else the
      parenthesised disjunction of one term per value. */
  function CreateConditionsFromList(condition: string, provided: Option<seq<string>>): (r: Option<string>)
    ensures r.None? <==> provided.None? || provided.value == []
    ensures r.Some? ==> |r.value| >= 2 && r.value[0] == '(' && r.value[|r.value| - 1] == ')'
  {
    if provided.None? || provided.value == [] then None
    else Some("(" + Join(" OR ", OrTerms(condition, provided.value)) + ")")
  }

  /** A single value gives a single parenthesised term. */
  lemma ConditionsSingle(condition: string, x: string)
    ensures CreateConditionsFromList(condition, Some([x])) == Some("(" + condition + "='" + x + "')")
  {
    var terms := OrTerms(condition, [x]);
    assert terms == [condition + "='" + x + "'"];
    assert Join(" OR ", terms) == condition + "='" + x + "'";
    assert "(" + (condition + "='" + x + "'") + ")" == "(" + condition + "='" + x + "')";
  }

  /** Appending a value appends one ` OR ` term before the closing parenthesis;
      with `ConditionsSingle` this fixes the text for every list. */
  lemma ConditionsSnoc(condition: string, xs: seq<string>, x: string)
    requires xs != []
    ensures var before := CreateConditionsFromList(condition, Some(xs)).value;
            CreateConditionsFromList(condition, Some(xs + [x])) ==
              Some(before[..|before| - 1] + " OR " + condition + "='" + x + "')")
  {
    var terms := OrTerms(condition, xs);
    var term := condition + "='" + x + "'";
    assert OrTerms(condition, xs + [x]) == terms + [term];
    JoinSnoc(" OR ", terms, term);
    var before := "(" + Join(" OR ", terms) + ")";
    assert before == CreateConditionsFromList(condition, Some(xs)).value;
    assert before[..|before| - 1] == "(" + Join(" OR ", terms);
    calc {
      CreateConditionsFromList(condition, Some(xs + [x])).value;
      "(" + Join(" OR ", terms + [term]) + ")";
      "(" + (Join(" OR ", terms) + " OR " + term) + ")";
      before[..|before| - 1] + " OR " + term + ")";
      before[..|before| - 1] + " OR " + condition + "='" + x + "')";
    }
  }

  // ---------------------------------------------------------------------------
  // query_executor

  /** What an operation returns: `None`, one model, or the list of models. */
  datatype Fetched = NoResult | One(record: Record) | Many(records: seq<Record>)

  /** The cardinality rule: nothing parsed gives `None`; `size == 1` gives the
      first model; any other size gives the whole list. */
  function ApplyCardinality(models: seq<Record>, size: int): (r: Fetched)
    ensures r.NoResult? <==> models == []
    ensures r.One? <==> models != [] && size == 1
    ensures r.One? ==> r.record == models[0]
    ensures r.Many? ==> r.records == models
  {
    if models == [] then NoResult else if size == 1 then One(models[0]) else Many(models)
  }

  /** The records an operation hands back. */
  function Delivered(f: Fetched): seq<Record>
  {
    match f
    case NoResult => []
    case One(r) => [r]
    case Many(rs) => rs
  }

  /** The cardinality rule never reorders or invents records: it delivers a
      prefix of the models, the first one alone when `size == 1`, all otherwise. */
  lemma CardinalityDeliversPrefix(models: seq<Record>, size: int)
    ensures Delivered(ApplyCardinality(models, size)) <= models
    ensures size != 1 ==> Delivered(ApplyCardinality(models, size)) == models
    ensures size == 1 ==> |Delivered(ApplyCardinality(models, size))| == (if models == [] then 0 else 1)
  {
  }

  /** What one decorated operation returns or raises, read off its events: its
      statement runs once with `maxRows = size`; a failure passes through;
      otherwise the rows are mapped and the cardinality rule applied. `None`
      when `ev` are not the events of one `execute_query`. */
  ghost function ExecutorOutcome(ev: seq<Event>, s: Session, fields: seq<string>, stmt: string,
                                 queryType: string, size: int): Option<Result<Fetched, Exc>>
  {
    match QueryOutcome(ev, s, CreateQuery(s, stmt, queryType), size)
    case None => None
    case Some(Failure(e)) => Some(Failure(e))
    case Some(Success(response)) => Some(Success(ApplyCardinality(RowModels(fields, response.rows), size)))
  }

  /** `r` is what the operation whose events are `ev` returns or raises. */
  ghost predicate ExecutorRun(ev: seq<Event>, s: Session, fields: seq<string>, stmt: string,
                              queryType: string, size: int, r: Result<Fetched, Exc>)
  {
    ExecutorOutcome(ev, s, fields, stmt, queryType, size) == Some(r)
  }

  /** The `query_executor` wrapper around an operation that built `stmt`. */
  method QueryExecutor(fields: seq<string>, sm: SparkseeSessionManager, stmt: string, queryType: string, size: int)
    returns (r: Result<Fetched, Exc>)
    requires sm.Ready()
    modifies sm.stub
    ensures old(sm.stub.trace) <= sm.stub.trace
    ensures ExecutorRun(sm.stub.trace[|old(sm.stub.trace)|..], sm.session.value, fields, stmt, queryType, size, r)
  {
    var response := sm.ExecuteQuery(stmt, queryType, size);
    if response.Failure? {
      return Failure(response.error);
    }
    var parsedModel := ProcessQueryResponse(fields, response.value);
    r := Success(ApplyCardinality(parsedModel, size));
  }
}

=== FILE: session_manager.dfy ===
/** The session and transaction lifecycle of the Sparksee client (session_manager.py).

    The gRPC stub is modelled as an object that records every call it receives,
    together with the reply, in `trace`. Each reply (success with some payload, or
    an exception) is chosen nondeterministically, so every contract below holds
    for every behaviour of the engine. */
module Sessions {

  import opened Wrappers
  import opened Wire

  /** How a stub call can fail: with a gRPC `RpcError`, or with another exception. */
  datatype Fault = RpcFault | OtherFault

  /** Exceptions that leave the session manager. */
  datatype Exc =
    | RpcError                          // a gRPC error passed through unchanged
    | OtherError                        // any other exception passed through unchanged
    | SparkseeConnectionError
    | GraphDBException(code: string)
    | IndexError                        // indexing past the end of a row

  /** The exception a failed stub call raises. */
  function Raised(f: Fault): Exc
  {
    match f
    case RpcFault => RpcError
    case OtherFault => OtherError
  }

  /** What `execute_query` raises for a failed stub call: an `RpcError` becomes a
      query `GraphDBException`, anything else passes through. */
  function QueryError(f: Fault): (e: Exc)
    ensures f == RpcFault <==> e == GraphDBException("Query")
    ensures f == OtherFault <==> e == OtherError
  {
    match f
    case RpcFault => GraphDBException("Query")
    case OtherFault => OtherError
  }

  // ---------------------------------------------------------------------------
  // The stub as an event trace

  datatype Call =
    | NewSession
    | BeginTx(session: Session)
    | CommitTx(session: Session)
    | RollbackTx(session: Session)
    | EndSession(session: Session)
    | RunQuery(query: Query)
    | GetResultRows(args: ResultRowsArguments)
    | CloseQuery(id: ResultSetID)

  datatype Reply =
    | Failed(fault: Fault)
    | Done
    | SessionReply(session: Session)
    | QueryIdReply(queryId: int)
    | RowsReply(response: ResultRows)

  datatype Event = Event(call: Call, reply: Reply)

  /** The reply recorded for a call that returns nothing. */
  function StatusReply(o: Outcome<Fault>): Reply
  {
    match o
    case Pass => Done
    case Fail(f) => Failed(f)
  }

  function SessionOrFault(r: Result<Session, Fault>): Reply
  {
    match r
    case Success(s) => SessionReply(s)
    case Failure(f) => Failed(f)
  }

  function QueryIdOrFault(r: Result<int, Fault>): Reply
  {
    match r
    case Success(id) => QueryIdReply(id)
    case Failure(f) => Failed(f)
  }

  function RowsOrFault(r: Result<ResultRows, Fault>): Reply
  {
    match r
    case Success(rows) => RowsReply(rows)
    case Failure(f) => Failed(f)
  }

  /** The gRPC channel; opaque. */
  datatype Channel = Channel(id: nat)

  class Stub {
    const channel: Channel
    var trace: seq<Event>

    constructor (channel: Channel)
      ensures this.channel == channel && trace == []
    {
      this.channel := channel;
      trace := [];
    }

    method NewSession() returns (r: Result<Session, Fault>)
      modifies this
      ensures trace == old(trace) + [Event(Call.NewSession, SessionOrFault(r))]
    {
      r := *;
      trace := trace + [Event(Call.NewSession, SessionOrFault(r))];
    }

    /** A call whose reply carries nothing: BeginTx, CommitTx, RollbackTx, EndSession, CloseQuery. */
    method StatusCall(c: Call) returns (r: Outcome<Fault>)
      modifies this
      ensures trace == old(trace) + [Event(c, StatusReply(r))]
    {
      r := *;
      trace := trace + [Event(c, StatusReply(r))];
    }

    method RunQuery(q: Query) returns (r: Result<int, Fault>)
      modifies this
      ensures trace == old(trace) + [Event(Call.RunQuery(q), QueryIdOrFault(r))]
    {
      r := *;
      trace := trace + [Event(Call.RunQuery(q), QueryIdOrFault(r))];
    }

    method GetResultRows(args: ResultRowsArguments) returns (r: Result<ResultRows, Fault>)
      modifies this
      ensures trace == old(trace) + [Event(Call.GetResultRows(args), RowsOrFault(r))]
    {
      r := *;
      trace := trace + [Event(Call.GetResultRows(args), RowsOrFault(r))];
    }
  }

  // ---------------------------------------------------------------------------
  // Counting calls in a trace

  datatype CallKind = NewSessionCall | BeginCall | CommitCall | RollbackCall | EndCall | RunCall | RowsCall | CloseCall

  function KindOf(c: Call): CallKind
  {
    match c
    case NewSession => NewSessionCall
    case BeginTx(_) => BeginCall
    case CommitTx(_) => CommitCall
    case RollbackTx(_) => RollbackCall
    case EndSession(_) => EndCall
    case RunQuery(_) => RunCall
    case GetResultRows(_) => RowsCall
    case CloseQuery(_) => CloseCall
  }

  /** How many calls of kind `k` the trace holds. */
  function Count(t: seq<Event>, k: CallKind): nat
  {
    if t == [] then 0
    else Count(t[..|t| - 1], k) + (if KindOf(t[|t| - 1].call) == k then 1 else 0)
  }

  lemma {:induction false} CountAppend(a: seq<Event>, b: seq<Event>, k: CallKind)
    ensures Count(a + b, k) == Count(a, k) + Count(b, k)
    decreases |b|
  {
    if b != [] {
      assert (a + b)[..|a + b| - 1] == a + b[..|b| - 1];
      CountAppend(a, b[..|b| - 1], k);
    } else {
      assert a + b == a;
    }
  }

  lemma CountSnoc(a: seq<Event>, e: Event, k: CallKind)
    ensures Count(a + [e], k) == Count(a, k) + (if KindOf(e.call) == k then 1 else 0)
  {
    assert (a + [e])[..|a|] == a;
  }

  lemma CountPair(e0: Event, e1: Event, k: CallKind)
    ensures Count([e0], k) == (if KindOf(e0.call) == k then 1 else 0)
    ensures Count([e0, e1], k) == Count([e0], k) + (if KindOf(e1.call) == k then 1 else 0)
  {
    assert [e0][..0] == [];
    assert [e0, e1][..1] == [e0];
  }

  /** Only query calls (RunQuery, GetResultRows, CloseQuery) occur in `t`. */
  ghost predicate QueryCallsOnly(t: seq<Event>)
  {
    forall i :: 0 <= i < |t| ==> KindOf(t[i].call) in {RunCall, RowsCall, CloseCall}
  }

  /** A stretch of query calls touches neither the session nor the transaction. */
  lemma {:induction false} QueryCallsOnlyCount(t: seq<Event>)
    requires QueryCallsOnly(t)
    ensures Count(t, NewSessionCall) == 0 && Count(t, BeginCall) == 0 && Count(t, CommitCall) == 0
    ensures Count(t, RollbackCall) == 0 && Count(t, EndCall) == 0
  {
    if t != [] {
      QueryCallsOnlyCount(t[..|t| - 1]);
    }
  }

  // ---------------------------------------------------------------------------
  // The events of each session-manager operation

  /** What one `execute_query` returns or raises, read off its events `ev`:
      RunQuery, then GetResultRows for the query id RunQuery returned and
      `maxRows`, then CloseQuery for that id, the first failure ending the
      sequence. `None` when `ev` is not such a sequence. */
  ghost function QueryOutcome(ev: seq<Event>, s: Session, q: Query, maxRows: int): Option<Result<ResultRows, Exc>>
  {
    if |ev| == 0 || ev[0].call != RunQuery(q) then None
    else match ev[0].reply
      case Failed(f) => if |ev| == 1 then Some(Failure(QueryError(f))) else None
      case QueryIdReply(qid) =>
        var id := ResultSetID(s, qid);
        if |ev| < 2 || ev[1].call != GetResultRows(ResultRowsArguments(id, maxRows)) then None
        else (match ev[1].reply
          case Failed(f) => if |ev| == 2 then Some(Failure(QueryError(f))) else None
          case RowsReply(response) =>
            if |ev| != 3 || ev[2].call != CloseQuery(id) then None
            else (match ev[2].reply
              case Done => Some(Success(response))
              case Failed(f) => Some(Failure(QueryError(f)))
              case _ => None)
          case _ => None)
      case _ => None
  }

  /** `ev` are the events of one `execute_query`. */
  ghost predicate QueryRun(ev: seq<Event>, s: Session, q: Query, maxRows: int)
  {
    QueryOutcome(ev, s, q, maxRows).Some?
  }

  /** What `execute_query` returns or raises, read off its events. */
  ghost function QueryResult(ev: seq<Event>, s: Session, q: Query, maxRows: int): Result<ResultRows, Exc>
    requires QueryRun(ev, s, q, maxRows)
  {
    QueryOutcome(ev, s, q, maxRows).value
  }

  /** A successful query issued exactly RunQuery, GetResultRows and CloseQuery,
      in that order, all three for the same query id, and returned the rows. */
  lemma QuerySuccessOrder(ev: seq<Event>, s: Session, q: Query, maxRows: int)
    requires QueryRun(ev, s, q, maxRows) && QueryResult(ev, s, q, maxRows).Success?
    ensures |ev| == 3
    ensures ev[0].call == RunQuery(q) && ev[0].reply.QueryIdReply?
    ensures ev[1].call == GetResultRows(ResultRowsArguments(ResultSetID(s, ev[0].reply.queryId), maxRows))
    ensures ev[2] == Event(CloseQuery(ResultSetID(s, ev[0].reply.queryId)), Done)
    ensures QueryResult(ev, s, q, maxRows) == Success(ev[1].reply.response)
  {
  }

  /** Once RunQuery or GetResultRows has failed, CloseQuery is never attempted. */
  lemma NoCloseAfterFailure(ev: seq<Event>, s: Session, q: Query, maxRows: int)
    requires QueryRun(ev, s, q, maxRows)
    requires ev[0].reply.Failed? || ev[1].reply.Failed?
    ensures Count(ev, CloseCall) == 0
    ensures QueryResult(ev, s, q, maxRows).Failure?
  {
    if ev[0].reply.Failed? {
      assert ev == [ev[0]];
      CountPair(ev[0], ev[0], CloseCall);
    } else {
      assert ev == [ev[0], ev[1]];
      CountPair(ev[0], ev[1], CloseCall);
    }
  }

  /** One query issues exactly one RunQuery and at most one CloseQuery, and no
      session or transaction calls. */
  lemma {:induction false} QueryRunCounts(ev: seq<Event>, s: Session, q: Query, maxRows: int)
    requires QueryRun(ev, s, q, maxRows)
    ensures QueryCallsOnly(ev)
    ensures Count(ev, RunCall) == 1 && Count(ev, CloseCall) <= 1
  {
    if |ev| == 1 {
      assert ev == [ev[0]];
      CountPair(ev[0], ev[0], RunCall);
      CountPair(ev[0], ev[0], CloseCall);
    } else {
      var two := [ev[0], ev[1]];
      assert ev[..2] == two;
      CountPair(ev[0], ev[1], RunCall);
      CountPair(ev[0], ev[1], CloseCall);
      if |ev| == 3 {
        assert ev == two + [ev[2]];
        CountSnoc(two, ev[2], RunCall);
        CountSnoc(two, ev[2], CloseCall);
      } else {
        assert ev == two;
      }
    }
  }

  /** How many events a query's run takes, read off the first replies: one when
      RunQuery fails, two when GetResultRows fails, three otherwise. */
  ghost function RunLength(ev: seq<Event>): nat
  {
    if |ev| >= 1 && ev[0].reply.Failed? then 1
    else if |ev| >= 2 && ev[1].reply.Failed? then 2
    else 3
  }

  /** A query's run can be cut off the front of a longer trace. */
  lemma RunLengthPrefix(x: seq<Event>, y: seq<Event>, s: Session, q: Query, maxRows: int)
    requires QueryRun(x, s, q, maxRows)
    ensures RunLength(x + y) == |x|
    ensures (x + y)[..|x|] == x && (x + y)[|x|..] == y
  {
  }

  /** The events of `begin_transaction`: BeginTx; when it fails, RollbackTx, whose
      own failure replaces the connection error. */
  ghost predicate BeginRun(ev: seq<Event>, s: Session, r: Outcome<Exc>)
  {
    |ev| >= 1 && ev[0].call == BeginTx(s) &&
    match ev[0].reply
    case Done => |ev| == 1 && r == Pass
    case Failed(_) =>
      |ev| == 2 && ev[1].call == RollbackTx(s) &&
      (match ev[1].reply
       case Done => r == Fail(SparkseeConnectionError)
       case Failed(f) => r == Fail(Raised(f))
       case _ => false)
    case _ => false
  }

  /** The events of `commit_transaction`: CommitTx and then, in every case,
      EndSession. A failure of EndSession replaces any commit error. */
  ghost predicate CommitRun(ev: seq<Event>, s: Session, r: Outcome<Exc>)
  {
    |ev| == 2 && ev[0].call == CommitTx(s) && ev[1].call == EndSession(s) &&
    (ev[0].reply.Done? || ev[0].reply.Failed?) &&
    match ev[1].reply
    case Failed(f) => r == Fail(Raised(f))
    case Done => r == (if ev[0].reply.Failed? then Fail(SparkseeConnectionError) else Pass)
    case _ => false
  }

  /** Whatever CommitTx does, the session is ended exactly once, right after it. */
  lemma CommitAlwaysEnds(ev: seq<Event>, s: Session, r: Outcome<Exc>)
    requires CommitRun(ev, s, r)
    ensures Count(ev, CommitCall) == 1 && Count(ev, EndCall) == 1 && Count(ev, RollbackCall) == 0
    ensures ev[0].reply.Failed? ==> r.Fail?
    ensures r.Pass? <==> ev[0].reply == Done && ev[1].reply == Done
  {
    assert ev == [ev[0], ev[1]];
    CountPair(ev[0], ev[1], CommitCall);
    CountPair(ev[0], ev[1], EndCall);
    CountPair(ev[0], ev[1], RollbackCall);
  }

  /** A failed BeginTx is always followed by exactly one RollbackTx, and the
      caller always sees an exception. */
  lemma BeginFailureRollsBack(ev: seq<Event>, s: Session, r: Outcome<Exc>)
    requires BeginRun(ev, s, r) && ev[0].reply.Failed?
    ensures |ev| == 2 && ev[1].call == RollbackTx(s) && r.Fail?
    ensures ev[1].reply.Failed? ==> r == Fail(Raised(ev[1].reply.fault))
  {
  }

  // ---------------------------------------------------------------------------
  // The manager

  /** `query_type` values other than the two dialects fall back to algebra. */
  function NormaliseDialect(queryType: string): (d: string)
    ensures d == "algebra" || d == "cypher"
    ensures queryType == "algebra" || queryType == "cypher" ==> d == queryType
    ensures queryType != "algebra" && queryType != "cypher" ==> d == "algebra"
  {
    if queryType !in ["algebra", "cypher"] then "algebra" else queryType
  }

  /** `_create_query`: the statement goes into the query field named after its
      dialect, beside the session. */
  function CreateQuery(session: Session, stmt: string, queryType: string): (q: Query)
    ensures q.session == session
    ensures q.cypherQuery == (if queryType == "cypher" then Some(stmt) else None)
    ensures q.algebraQuery == (if queryType == "cypher" then None else Some(stmt))
  {
    var dialect := NormaliseDialect(queryType);
    Query(session,
          if dialect == "algebra" then Some(stmt) else None,
          if dialect == "cypher" then Some(stmt) else None)
  }

  class SparkseeSessionManager {
    var channel: Option<Channel>
    var stub: Stub?
    var session: Option<Session>
    /** How many times `create_aio_channel` was attempted; no state in the
        source, it records that a channel failure did happen. */
    ghost var channelTries: nat

    /** Channel, stub and session are all set, and the stub uses the channel. */
    predicate Ready()
      reads this
    {
      channel.Some? && stub != null && session.Some? && stub.channel == channel.value
    }

    /** The dataclass's fields start unset. */
    constructor ()
      ensures channel == None && stub == null && session == None && channelTries == 0
    {
      channel, stub, session := None, null, None;
      channelTries := 0;
    }

    /** `create_aio_channel`: an `RpcError` becomes a connection error; any other
        exception passes through. */
    static method CreateAioChannel() returns (r: Result<Channel, Exc>)
      ensures r.Failure? ==> r.error == SparkseeConnectionError || r.error == OtherError
    {
      var attempt: Result<Channel, Fault> := *;
      match attempt
      case Success(c) => r := Success(c);
      case Failure(RpcFault) => r := Failure(SparkseeConnectionError);
      case Failure(OtherFault) => r := Failure(OtherError);
    }

    /** `create_session`: any failure of NewSession becomes a session `GraphDBException`
        and leaves the session as it was. */
    method CreateSession() returns (r: Outcome<Exc>)
      requires stub != null
      modifies this, stub
      ensures channel == old(channel) && stub == old(stub) && channelTries == old(channelTries)
      ensures |stub.trace| == |old(stub.trace)| + 1 && stub.trace[..|old(stub.trace)|] == old(stub.trace)
      ensures var e := stub.trace[|stub.trace| - 1];
              e.call == NewSession && (e.reply.SessionReply? || e.reply.Failed?) &&
              (e.reply.SessionReply? ==> r == Pass && session == Some(e.reply.session)) &&
              (e.reply.Failed? ==> r == Fail(GraphDBException("Session")) && session == old(session))
    {
      var created := stub.NewSession();
      match created
      case Success(s) =>
        session := Some(s);
        r := Pass;
      case Failure(_) =>
        r := Fail(GraphDBException("Session"));
    }

    /** `init`: the channel, then a fresh stub over it, then the session. A channel
        failure leaves every field as it was. */
    method Init() returns (r: Outcome<Exc>)
      modifies this
      ensures channelTries == old(channelTries) + 1
      ensures r.Fail? && r.error != GraphDBException("Session") ==>
                (r.error == SparkseeConnectionError || r.error == OtherError) &&
                channel == old(channel) && stub == old(stub) && session == old(session)
      ensures !(r.Fail? && r.error != GraphDBException("Session")) ==>
                channel.Some? && stub != null && fresh(stub) && stub.channel == channel.value &&
                |stub.trace| == 1 && stub.trace[0].call == NewSession &&
                (r.Pass? <==> stub.trace[0].reply.SessionReply?) &&
                (r.Pass? ==> Ready() && session == Some(stub.trace[0].reply.session)) &&
                (r.Fail? ==> stub.trace[0].reply.Failed? && session == old(session))
    {
      var c := CreateAioChannel();
      channelTries := channelTries + 1;
      if c.Failure? {
        return Fail(c.error);
      }
      channel := Some(c.value);
      stub := new Stub(c.value);
      r := CreateSession();
    }

    /** `begin_transaction`. */
    method BeginTransaction() returns (r: Outcome<Exc>)
      requires Ready()
      modifies stub
      ensures old(stub.trace) <= stub.trace
      ensures BeginRun(stub.trace[|old(stub.trace)|..], session.value, r)
    {
      var begun := stub.StatusCall(BeginTx(session.value));
      if begun.Fail? {
        var rolledBack := RollbackTransaction();
        if rolledBack.Fail? {
          return rolledBack;
        }
        return Fail(SparkseeConnectionError);
      }
      r := Pass;
    }

    /** `commit_transaction`: EndSession runs in a `finally` after CommitTx. */
    method CommitTransaction() returns (r: Outcome<Exc>)
      requires Ready()
      modifies stub
      ensures old(stub.trace) <= stub.trace
      ensures CommitRun(stub.trace[|old(stub.trace)|..], session.value, r)
    {
      var committed := stub.StatusCall(CommitTx(session.value));
      r := if committed.Fail? then Fail(SparkseeConnectionError) else Pass;
      var ended := stub.StatusCall(EndSession(session.value));
      if ended.Fail? {
        r := Fail(Raised(ended.error));
      }
    }

    /** `rollback_transaction`: nothing is caught, so a failure passes through. */
    method RollbackTransaction() returns (r: Outcome<Exc>)
      requires Ready()
      modifies stub
      ensures stub.trace == old(stub.trace) + [Event(RollbackTx(session.value), StatusReply(
                if r.Pass? then Pass else Fail(if r.error == RpcError then RpcFault else OtherFault)))]
      ensures r.Fail? ==> r.error == RpcError || r.error == OtherError
    {
      var rolledBack := stub.StatusCall(RollbackTx(session.value));
      r := if rolledBack.Fail? then Fail(Raised(rolledBack.error)) else Pass;
    }

    /** `execute_query`: RunQuery, GetResultRows and CloseQuery in that order. */
    method ExecuteQuery(stmt: string, queryType: string := "algebra", maxRows: int := 10) returns (r: Result<ResultRows, Exc>)
      requires Ready()
      modifies stub
      ensures old(stub.trace) <= stub.trace
      ensures QueryOutcome(stub.trace[|old(stub.trace)|..], session.value, CreateQuery(session.value, stmt, queryType), maxRows) == Some(r)
    {
      var s := session.value;
      var q := CreateQuery(s, stmt, queryType);
      ghost var t0 := stub.trace;
      var run := stub.RunQuery(q);
      if run.Failure? {
        assert stub.trace[|t0|..] == [Event(RunQuery(q), Failed(run.error))];
        return Failure(QueryError(run.error));
      }
      var id := ResultSetID(s, run.value);
      var rows := stub.GetResultRows(ResultRowsArguments(id, maxRows));
      if rows.Failure? {
        assert stub.trace[|t0|..] == [Event(RunQuery(q), QueryIdReply(run.value)),
          Event(GetResultRows(ResultRowsArguments(id, maxRows)), Failed(rows.error))];
        return Failure(QueryError(rows.error));
      }
      var closed := stub.StatusCall(CloseQuery(id));
      assert stub.trace[|t0|..] == [Event(RunQuery(q), QueryIdReply(run.value)),
        Event(GetResultRows(ResultRowsArguments(id, maxRows)), RowsReply(rows.value)),
        Event(CloseQuery(id), StatusReply(closed))];
      if closed.Fail? {
        return Failure(QueryError(closed.error));
      }
      r := Success(rows.value);
    }
  }

  // ---------------------------------------------------------------------------
  // session_context

  /** One statement the caller's block runs through `execute_query`. */
  datatype Request = Request(stmt: string, queryType: string, maxRows: int)

  /** The query `execute_query` builds for one request. */
  function RequestQuery(s: Session, req: Request): Query
  {
    CreateQuery(s, req.stmt, req.queryType)
  }

  /** The rows of the requests `reqs`, when `ev` are exactly their events and
      every one of them succeeded, one `execute_query` after another. */
  ghost function BlockSteps(ev: seq<Event>, s: Session, reqs: seq<Request>): Option<seq<ResultRows>>
    decreases |reqs|
  {
    if reqs == [] then (if ev == [] then Some([]) else None)
    else
      var k := RunLength(ev);
      if k > |ev| then None
      else match QueryOutcome(ev[..k], s, RequestQuery(s, reqs[0]), reqs[0].maxRows)
        case Some(Success(rows)) =>
          (match BlockSteps(ev[k..], s, reqs[1..])
           case Some(rest) => Some([rows] + rest)
           case None => None)
        case _ => None
  }

  /** What the caller's block returns or raises, read off its events `ev`: the
      requests of `body` run one `execute_query` after another; the first
      exception ends the block and is what it raises; when every request
      succeeded the block raises `userError` if there is one and otherwise
      returns the rows in request order. `None` when `ev` are not such events. */
  ghost function BlockOutcome(ev: seq<Event>, s: Session, body: seq<Request>, userError: Option<Exc>)
    : Option<Result<seq<ResultRows>, Exc>>
    decreases |body|
  {
    if body == [] then
      (if ev == [] then Some(if userError.Some? then Failure(userError.value) else Success([])) else None)
    else
      var k := RunLength(ev);
      if k > |ev| then None
      else match QueryOutcome(ev[..k], s, RequestQuery(s, body[0]), body[0].maxRows)
        case None => None
        case Some(Failure(e)) => if |ev| == k then Some(Failure(e)) else None
        case Some(Success(rows)) =>
          match BlockOutcome(ev[k..], s, body[1..], userError)
          case Some(Success(rest)) => Some(Success([rows] + rest))
          case other => other
  }

  /** The first request's run is cut off the front of the block's events. */
  lemma StepsUnfold(ev: seq<Event>, s: Session, reqs: seq<Request>)
    requires reqs != [] && BlockSteps(ev, s, reqs).Some?
    ensures var k, rs := RunLength(ev), BlockSteps(ev, s, reqs).value;
            k <= |ev| && |rs| >= 1 &&
            QueryOutcome(ev[..k], s, RequestQuery(s, reqs[0]), reqs[0].maxRows) == Some(Success(rs[0])) &&
            BlockSteps(ev[k..], s, reqs[1..]) == Some(rs[1..])
  {
  }

  /** A successful first run in front of the other requests' events. */
  lemma StepsFold(head: seq<Event>, tail: seq<Event>, s: Session, reqs: seq<Request>, x: ResultRows)
    requires reqs != [] && QueryOutcome(head, s, RequestQuery(s, reqs[0]), reqs[0].maxRows) == Some(Success(x))
    ensures BlockSteps(tail, s, reqs[1..]).Some? ==>
              BlockSteps(head + tail, s, reqs) == Some([x] + BlockSteps(tail, s, reqs[1..]).value)
  {
    RunLengthPrefix(head, tail, s, RequestQuery(s, reqs[0]), reqs[0].maxRows);
  }

  /** Cutting `a` at `k` and appending `b` to the back part gives `a + b` again. */
  lemma SplitAppend<T>(a: seq<T>, b: seq<T>, k: nat)
    requires k <= |a|
    ensures a + b == a[..k] + (a[k..] + b)
  {
    assert a == a[..k] + a[k..];
  }

  /** Dropping the first element commutes with appending one at the back. */
  lemma TailSnoc<T>(xs: seq<T>, x: T)
    requires xs != []
    ensures (xs + [x])[1..] == xs[1..] + [x]
    ensures xs + [x] == [xs[0]] + (xs[1..] + [x])
  {
  }

  /** Taking a prefix and then dropping its head is dropping the head first. */
  lemma TakeTail<T>(xs: seq<T>, i: nat)
    requires 0 < i <= |xs|
    ensures xs[..i][0] == xs[0] && xs[..i][1..] == xs[1..][..i - 1]
  {
  }

  /** A longer prefix is the shorter one and the next element. */
  lemma TakeSnoc<T>(xs: seq<T>, i: nat)
    requires i < |xs|
    ensures xs[..i + 1] == xs[..i] + [xs[i]]
  {
  }

  /** A trace that extends `before` is `before` followed by the new events, past any cut. */
  lemma DropExtended<T>(before: seq<T>, after: seq<T>, n: nat)
    requires n <= |before| && before <= after
    ensures after[n..] == before[n..] + after[|before|..]
  {
  }

  /** One more successful request extends the rows by its response. */
  lemma {:induction false} StepsSnoc(a: seq<Event>, b: seq<Event>, s: Session, reqs: seq<Request>, req: Request,
                                     rs: seq<ResultRows>, x: ResultRows)
    requires BlockSteps(a, s, reqs) == Some(rs)
    requires QueryOutcome(b, s, RequestQuery(s, req), req.maxRows) == Some(Success(x))
    ensures BlockSteps(a + b, s, reqs + [req]) == Some(rs + [x])
    decreases |reqs|
  {
    if reqs == [] {
      assert a == [] && rs == [] && a + b == b + [] && reqs + [req] == [req] && [req][1..] == [];
      StepsFold(b, [], s, [req], x);
      assert BlockSteps([], s, []) == Some([]);
      assert [x] + [] == rs + [x];
    } else {
      StepsUnfold(a, s, reqs);
      var k := RunLength(a);
      StepsSnoc(a[k..], b, s, reqs[1..], req, rs[1..], x);
      TailSnoc(reqs, req);
      TailSnoc(rs, x);
      StepsFold(a[..k], a[k..] + b, s, reqs + [req], rs[0]);
      SplitAppend(a, b, k);
    }
  }

  /** A failing first run, with nothing after it, ends the block. */
  lemma OutcomeFailFirst(b: seq<Event>, s: Session, body: seq<Request>, e: Exc, userError: Option<Exc>)
    requires body != [] && QueryOutcome(b, s, RequestQuery(s, body[0]), body[0].maxRows) == Some(Failure(e))
    ensures BlockOutcome(b, s, body, userError) == Some(Failure(e))
  {
    RunLengthPrefix(b, [], s, RequestQuery(s, body[0]), body[0].maxRows);
    assert b + [] == b;
  }

  /** A successful first run in front of the other requests' events passes
      their exception on. */
  lemma OutcomeFold(head: seq<Event>, tail: seq<Event>, s: Session, body: seq<Request>, x: ResultRows,
                    e: Exc, userError: Option<Exc>)
    requires body != [] && QueryOutcome(head, s, RequestQuery(s, body[0]), body[0].maxRows) == Some(Success(x))
    ensures BlockOutcome(tail, s, body[1..], userError) == Some(Failure(e)) ==>
              BlockOutcome(head + tail, s, body, userError) == Some(Failure(e))
  {
    RunLengthPrefix(head, tail, s, RequestQuery(s, body[0]), body[0].maxRows);
  }

  /** After successful requests, a failing one ends the block with its exception. */
  lemma {:induction false} StepsThenFailure(a: seq<Event>, b: seq<Event>, s: Session, body: seq<Request>, i: nat,
                                            rs: seq<ResultRows>, e: Exc, userError: Option<Exc>)
    requires i < |body| && BlockSteps(a, s, body[..i]) == Some(rs)
    requires QueryOutcome(b, s, RequestQuery(s, body[i]), body[i].maxRows) == Some(Failure(e))
    ensures BlockOutcome(a + b, s, body, userError) == Some(Failure(e))
    decreases i
  {
    if i == 0 {
      assert a == [] && a + b == b;
      OutcomeFailFirst(b, s, body, e, userError);
    } else {
      StepsUnfold(a, s, body[..i]);
      var k := RunLength(a);
      TakeTail(body, i);
      StepsThenFailure(a[k..], b, s, body[1..], i - 1, rs[1..], e, userError);
      OutcomeFold(a[..k], a[k..] + b, s, body, rs[0], e, userError);
      SplitAppend(a, b, k);
    }
  }

  /** When every request succeeded, the block raises `userError` if there is one
      and otherwise returns the rows. */
  lemma {:induction false} StepsComplete(ev: seq<Event>, s: Session, body: seq<Request>, rs: seq<ResultRows>,
                                         userError: Option<Exc>)
    requires BlockSteps(ev, s, body) == Some(rs)
    ensures BlockOutcome(ev, s, body, userError) ==
              Some(if userError.Some? then Failure(userError.value) else Success(rs))
    decreases |body|
  {
    if body != [] {
      var k := RunLength(ev);
      var rest := BlockSteps(ev[k..], s, body[1..]).value;
      StepsComplete(ev[k..], s, body[1..], rest, userError);
    }
  }

  /** The block returns rows only when there is no user exception and every
      request succeeded; the rows are then one response per request, in order,
      each the one its GetResultRows reply carried. */
  lemma {:induction false} BlockSuccessRows(ev: seq<Event>, s: Session, body: seq<Request>, userError: Option<Exc>,
                                            rs: seq<ResultRows>)
    requires BlockOutcome(ev, s, body, userError) == Some(Success(rs))
    ensures userError.None? && |rs| == |body|
    ensures BlockSteps(ev, s, body) == Some(rs)
    decreases |body|
  {
    if body != [] {
      var k := RunLength(ev);
      var rest := BlockOutcome(ev[k..], s, body[1..], userError).value.value;
      BlockSuccessRows(ev[k..], s, body[1..], userError, rest);
    }
  }

  /** The trace of a unit of work whose session opened and whose transaction
      began: NewSession, BeginTx, only query calls, then CommitTx and EndSession. */
  ghost predicate ResolvedTrace(t: seq<Event>, s: Session)
  {
    |t| >= 4 &&
    t[0] == Event(NewSession, SessionReply(s)) &&
    t[1] == Event(BeginTx(s), Done) &&
    QueryCallsOnly(t[2..|t| - 2]) &&
    t[|t| - 2].call == CommitTx(s) &&
    t[|t| - 1].call == EndSession(s)
  }

  /** Such a unit of work commits exactly once, ends its session exactly once and
      never rolls back. */
  lemma CommitsExactlyOnce(t: seq<Event>, s: Session)
    requires ResolvedTrace(t, s)
    ensures Count(t, CommitCall) == 1 && Count(t, EndCall) == 1 && Count(t, RollbackCall) == 0
    ensures Count(t, NewSessionCall) == 1 && Count(t, BeginCall) == 1
  {
    var head, body, tail := t[..2], t[2..|t| - 2], t[|t| - 2..];
    assert t == head + body + tail;
    QueryCallsOnlyCount(body);
    assert head == [t[0], t[1]];
    assert tail == [t[|t| - 2], t[|t| - 1]];
    forall k
      ensures Count(t, k) == Count(head, k) + Count(body, k) + Count(tail, k)
      ensures Count(head, k) == (if KindOf(t[0].call) == k then 1 else 0) + (if KindOf(t[1].call) == k then 1 else 0)
      ensures Count(tail, k) == (if KindOf(t[|t| - 2].call) == k then 1 else 0) + (if KindOf(t[|t| - 1].call) == k then 1 else 0)
    {
      CountAppend(head, body, k);
      CountAppend(head + body, tail, k);
      CountPair(t[0], t[1], k);
      CountPair(t[|t| - 2], t[|t| - 1], k);
    }
  }

  /** `session_context`: open a manager, begin, run the caller's block, and in a
      `finally` commit. The block runs `body` through `execute_query`, stopping at
      the first exception; if all of them succeed it may still raise `userError`.
      When commit and end succeed, the caller gets what the block returned or
      raised (`BlockOutcome`); an exception from either replaces it. */
  method SessionContext(body: seq<Request>, userError: Option<Exc>)
    returns (r: Result<seq<ResultRows>, Exc>, m: SparkseeSessionManager)
    ensures fresh(m) && m.channelTries == 1
    // the channel could not be created: no stub, no calls
    ensures m.stub == null ==> r == Failure(SparkseeConnectionError) || r == Failure(OtherError)
    ensures m.stub != null ==>
              fresh(m.stub) && |m.stub.trace| >= 1 && m.stub.trace[0].call == NewSession &&
              (m.stub.trace[0].reply.SessionReply? || m.stub.trace[0].reply.Failed?)
    // the session could not be opened: nothing else happens
    ensures m.stub != null && m.stub.trace[0].reply.Failed? ==>
              |m.stub.trace| == 1 && r == Failure(GraphDBException("Session"))
    // the session opened: the next call is BeginTx on it, which succeeds or fails
    ensures m.stub != null && m.stub.trace[0].reply.SessionReply? ==>
              m.Ready() && m.session == Some(m.stub.trace[0].reply.session) && |m.stub.trace| >= 2 &&
              m.stub.trace[1].call == BeginTx(m.session.value) &&
              (m.stub.trace[1].reply == Done || m.stub.trace[1].reply.Failed?)
    // the transaction could not begin: rolled back, never committed, and the
    // caller sees the connection error, or the rollback's own failure
    ensures m.stub != null && m.stub.trace[0].reply.SessionReply? && m.session.Some? &&
            |m.stub.trace| >= 2 && m.stub.trace[1].reply.Failed? ==>
              |m.stub.trace| == 3 && m.stub.trace[2].call == RollbackTx(m.session.value) &&
              Count(m.stub.trace, CommitCall) == 0 && r.Failure? &&
              (m.stub.trace[2].reply == Done ==> r == Failure(SparkseeConnectionError)) &&
              (m.stub.trace[2].reply.Failed? ==> r == Failure(Raised(m.stub.trace[2].reply.fault))) &&
              (m.stub.trace[2].reply == Done || m.stub.trace[2].reply.Failed?)
    // the transaction began: committed and ended exactly once, whatever the block did
    ensures m.stub != null && |m.stub.trace| >= 2 && m.stub.trace[1].reply == Done ==>
              m.Ready() && ResolvedTrace(m.stub.trace, m.session.value) &&
              (var t := m.stub.trace;
               BlockOutcome(t[2..|t| - 2], m.session.value, body, userError).Some? &&
               (t[|t| - 2].reply == Done && t[|t| - 1].reply == Done ==>
                  Some(r) == BlockOutcome(t[2..|t| - 2], m.session.value, body, userError)) &&
               (t[|t| - 1].reply.Failed? ==> r == Failure(Raised(t[|t| - 1].reply.fault))) &&
               (t[|t| - 1].reply == Done && t[|t| - 2].reply.Failed? ==> r == Failure(SparkseeConnectionError)) &&
               (userError.Some? ==> r.Failure?) &&
               (r.Success? ==> |r.value| == |body| && t[|t| - 2].reply == Done && t[|t| - 1].reply == Done))
  {
    m := new SparkseeSessionManager();
    var initialised := m.Init();
    if initialised.Fail? {
      return Failure(initialised.error), m;
    }
    var s := m.session.value;
    ghost var t1 := m.stub.trace;
    var begun := m.BeginTransaction();
    if begun.Fail? {
      ghost var t := m.stub.trace;
      assert t == [t[0], t[1]] + [t[2]];
      CountPair(t[0], t[1], CommitCall);
      CountSnoc([t[0], t[1]], t[2], CommitCall);
      return Failure(begun.error), m;
    }
    assert m.stub.trace == [Event(NewSession, SessionReply(s)), Event(BeginTx(s), Done)];
    r := RunBlockAndCommit(m, body, userError);
  }

  /** The part of `session_context` after the transaction began: the caller's
      block, then, in the `finally`, the commit. */
  method RunBlockAndCommit(m: SparkseeSessionManager, body: seq<Request>, userError: Option<Exc>)
    returns (r: Result<seq<ResultRows>, Exc>)
    requires m.Ready()
    requires m.stub.trace == [Event(NewSession, SessionReply(m.session.value)), Event(BeginTx(m.session.value), Done)]
    modifies m.stub
    ensures ResolvedTrace(m.stub.trace, m.session.value)
    ensures var t := m.stub.trace;
            BlockOutcome(t[2..|t| - 2], m.session.value, body, userError).Some? &&
            (t[|t| - 2].reply == Done && t[|t| - 1].reply == Done ==>
               Some(r) == BlockOutcome(t[2..|t| - 2], m.session.value, body, userError)) &&
            (t[|t| - 1].reply.Failed? ==> r == Failure(Raised(t[|t| - 1].reply.fault))) &&
            (t[|t| - 1].reply == Done && t[|t| - 2].reply.Failed? ==> r == Failure(SparkseeConnectionError)) &&
            (userError.Some? ==> r.Failure?) &&
            (r.Success? ==> |r.value| == |body| && t[|t| - 2].reply == Done && t[|t| - 1].reply == Done)
  {
    var s := m.session.value;
    // try: the caller's block
    var block := RunBlock(m, body, userError);
    if block.Success? {
      BlockSuccessRows(m.stub.trace[2..], s, body, userError, block.value);
    }
    // finally: commit
    ghost var beforeCommit := m.stub.trace;
    var committed := m.CommitTransaction();
    CommitCloses(beforeCommit, m.stub.trace, s, committed);
    if committed.Fail? {
      r := Failure(committed.error);
    } else {
      r := block;
    }
  }

  /** The caller's block inside `session_context`'s `try`: the requests of `body`
      one `execute_query` after another, stopping at the first exception; when
      all succeed, `userError` if there is one, and otherwise the rows. */
  method RunBlock(m: SparkseeSessionManager, body: seq<Request>, userError: Option<Exc>)
    returns (r: Result<seq<ResultRows>, Exc>)
    requires m.Ready()
    requires m.stub.trace == [Event(NewSession, SessionReply(m.session.value)), Event(BeginTx(m.session.value), Done)]
    modifies m.stub
    ensures |m.stub.trace| >= 2 && m.stub.trace[..2] == old(m.stub.trace)
    ensures QueryCallsOnly(m.stub.trace[2..])
    ensures BlockOutcome(m.stub.trace[2..], m.session.value, body, userError) == Some(r)
  {
    var s := m.session.value;
    var results: seq<ResultRows> := [];
    var blockError: Option<Exc> := None;
    var i := 0;
    while i < |body| && blockError.None?
      invariant 0 <= i <= |body|
      decreases |body| - i
      invariant m.Ready() && m.session == Some(s)
      invariant |m.stub.trace| >= 2 && m.stub.trace[..2] == [Event(NewSession, SessionReply(s)), Event(BeginTx(s), Done)]
      invariant QueryCallsOnly(m.stub.trace[2..])
      invariant blockError.None? ==> |results| == i && BlockSteps(m.stub.trace[2..], s, body[..i]) == Some(results)
      invariant blockError.Some? ==> BlockOutcome(m.stub.trace[2..], s, body, userError) == Some(Failure(blockError.value))
    {
      ghost var before := m.stub.trace;
      var answer := m.ExecuteQuery(body[i].stmt, body[i].queryType, body[i].maxRows);
      QueryStepKeepsCalls(before, m.stub.trace, s, RequestQuery(s, body[i]), body[i].maxRows);
      BlockStep(before, m.stub.trace, s, body, i, results, answer, userError);
      match answer {
        case Success(rows) => results := results + [rows];
        case Failure(e) => blockError := Some(e);
      }
      i := i + 1;
    }
    if blockError.Some? {
      return Failure(blockError.value);
    }
    assert body[..i] == body;
    StepsComplete(m.stub.trace[2..], s, body, results, userError);
    if userError.Some? {
      return Failure(userError.value);
    }
    r := Success(results);
  }

  /** One more request's events extend what the block's events so far say. */
  lemma BlockStep(before: seq<Event>, after: seq<Event>, s: Session, body: seq<Request>, i: nat,
                  results: seq<ResultRows>, answer: Result<ResultRows, Exc>, userError: Option<Exc>)
    requires |before| >= 2 && before <= after && i < |body|
    requires BlockSteps(before[2..], s, body[..i]) == Some(results)
    requires QueryOutcome(after[|before|..], s, RequestQuery(s, body[i]), body[i].maxRows) == Some(answer)
    ensures answer.Success? ==> BlockSteps(after[2..], s, body[..i + 1]) == Some(results + [answer.value])
    ensures answer.Failure? ==> BlockOutcome(after[2..], s, body, userError) == Some(Failure(answer.error))
  {
    DropExtended(before, after, 2);
    if answer.Success? {
      TakeSnoc(body, i);
      StepsSnoc(before[2..], after[|before|..], s, body[..i], body[i], results, answer.value);
    } else {
      StepsThenFailure(before[2..], after[|before|..], s, body, i, results, answer.error, userError);
    }
  }

  /** One more query keeps the opening events and adds query calls only. */
  lemma QueryStepKeepsCalls(before: seq<Event>, after: seq<Event>, s: Session, q: Query, maxRows: int)
    requires |before| >= 2 && before <= after && QueryCallsOnly(before[2..])
    requires QueryRun(after[|before|..], s, q, maxRows)
    ensures after[..2] == before[..2] && QueryCallsOnly(after[2..])
  {
    QueryRunCounts(after[|before|..], s, q, maxRows);
    assert after == before + after[|before|..];
    assert after[2..] == before[2..] + after[|before|..];
  }

  /** Committing after the opening events and the block's query calls gives a
      resolved trace, and the outcome is read off its last two events. */
  lemma CommitCloses(beforeCommit: seq<Event>, t: seq<Event>, s: Session, committed: Outcome<Exc>)
    requires |beforeCommit| >= 2 && beforeCommit[..2] == [Event(NewSession, SessionReply(s)), Event(BeginTx(s), Done)]
    requires QueryCallsOnly(beforeCommit[2..]) && beforeCommit <= t
    requires CommitRun(t[|beforeCommit|..], s, committed)
    ensures ResolvedTrace(t, s) && t[..2] == beforeCommit[..2] && t[2..|t| - 2] == beforeCommit[2..]
    ensures t[|t| - 1].reply.Failed? ==> committed == Fail(Raised(t[|t| - 1].reply.fault))
    ensures t[|t| - 1].reply == Done && t[|t| - 2].reply.Failed? ==> committed == Fail(SparkseeConnectionError)
    ensures committed.Pass? ==> t[|t| - 2].reply == Done && t[|t| - 1].reply == Done
  {
    assert t == beforeCommit + t[|beforeCommit|..];
    assert t[2..|t| - 2] == beforeCommit[2..];
  }
}

=== FILE: strings.dfy ===
/** Text operations the client layer relies on: Python's `str.join`, the decimal
    rendering of integers that f-strings perform, and layout of multi-line statements. */
module Strings {

  import opened Wrappers

  /** `sep.join(xs)`: the elements of `xs` in order, with `sep` between neighbours. */
  function Join(sep: string, xs: seq<string>): string
  {
    if |xs| == 0 then ""
    else if |xs| == 1 then xs[0]
    else xs[0] + sep + Join(sep, xs[1..])
  }

  /** Joining can be read from the back as well: appending one element appends
      one separator and that element. */
  lemma {:induction false} JoinSnoc(sep: string, xs: seq<string>, x: string)
    requires |xs| > 0
    ensures Join(sep, xs + [x]) == Join(sep, xs) + sep + x
  {
    if |xs| == 1 {
      assert (xs + [x])[1..] == [x];
    } else {
      assert (xs + [x])[1..] == xs[1..] + [x];
      JoinSnoc(sep, xs[1..], x);
    }
  }

  /** With a non-empty separator the joined text is empty exactly when there is
      at most one element and every element is empty. */
  lemma {:induction false} JoinEmptyIff(sep: string, xs: seq<string>)
    requires sep != ""
    ensures Join(sep, xs) == "" <==> |xs| == 0 || (|xs| == 1 && xs[0] == "")
  {
    if |xs| >= 2 {
      assert |Join(sep, xs)| >= |sep|;
    }
  }

  /** Joining a list of non-empty strings gives non-empty text when the list is non-empty. */
  lemma {:induction false} JoinNonEmpty(sep: string, xs: seq<string>)
    requires |xs| > 0 && xs[0] != ""
    ensures Join(sep, xs) != ""
  {
    if |xs| >= 2 {
      assert |Join(sep, xs)| >= |xs[0]|;
    }
  }

  /** `n` blanks. */
  function Spaces(n: nat): (r: string)
    ensures |r| == n && forall i :: 0 <= i < n ==> r[i] == ' '
  {
    seq(n, _ => ' ')
  }

  /** One line of a triple-quoted statement: `indent` blanks, the text, a newline. */
  function Line(indent: nat, text: string): string
  {
    Spaces(indent) + text + "\n"
  }

  /** A source line of a multi-line statement: its indentation and its text. */
  datatype SrcLine = SrcLine(indent: nat, text: string)

  /** The lines, each laid out by `Line`, in order. */
  function Body(lines: seq<SrcLine>): string
  {
    if lines == [] then "" else Line(lines[0].indent, lines[0].text) + Body(lines[1..])
  }

  /** A triple-quoted statement that opens with a line break, holds `lines`, and
      ends on a line of `closing` blanks (the indentation of the closing quotes). */
  function Render(lines: seq<SrcLine>, closing: nat): string
  {
    "\n" + Body(lines) + Spaces(closing)
  }

  /** `sub` occurs in `s`. */
  ghost predicate Contains(s: string, sub: string)
  {
    exists i :: OccursAt(s, sub, i)
  }

  /** `sub` occurs in `s` starting at index `i`. */
  predicate OccursAt(s: string, sub: string, i: int)
  {
    0 <= i <= |s| - |sub| && s[i..i + |sub|] == sub
  }

  lemma ContainsMiddle(a: string, sub: string, b: string)
    ensures Contains(a + sub + b, sub)
  {
    var s := a + sub + b;
    assert OccursAt(s, sub, |a|);
  }

  /** What occurs in a part of `s` occurs in `s`. */
  lemma ContainsTrans(s: string, m: string, sub: string)
    requires Contains(s, m) && Contains(m, sub)
    ensures Contains(s, sub)
  {
    var i :| OccursAt(s, m, i);
    var j :| OccursAt(m, sub, j);
    forall t | 0 <= t < |sub|
      ensures s[i + j + t] == sub[t]
    {
      assert m[j..j + |sub|][t] == sub[t];
      assert s[i..i + |m|][j + t] == m[j + t];
    }
    assert s[i + j..i + j + |sub|] == sub;
    assert OccursAt(s, sub, i + j);
  }

  /** Every line's text appears in the laid-out lines. */
  lemma {:induction false} BodyContains(lines: seq<SrcLine>, k: nat)
    requires k < |lines|
    ensures Contains(Body(lines), lines[k].text)
  {
    if k == 0 {
      BodyContainsFirst(lines);
    } else {
      BodyContains(lines[1..], k - 1);
      assert lines[1..][k - 1] == lines[k];
      BodyContainsRest(lines, lines[k].text);
    }
  }

  /** The first line's text appears in the laid-out lines. */
  lemma BodyContainsFirst(lines: seq<SrcLine>)
    requires |lines| > 0
    ensures Contains(Body(lines), lines[0].text)
  {
    ContainsMiddle(Spaces(lines[0].indent), lines[0].text, "\n");
    ContainsPrefix(Line(lines[0].indent, lines[0].text), Body(lines[1..]), lines[0].text);
  }

  /** What occurs in `a` occurs in `a + c`. */
  lemma ContainsPrefix(a: string, c: string, sub: string)
    requires Contains(a, sub)
    ensures Contains(a + c, sub)
  {
    var i :| OccursAt(a, sub, i);
    assert (a + c)[i..i + |sub|] == a[i..i + |sub|];
    assert OccursAt(a + c, sub, i);
  }

  /** What appears after the first line appears in the laid-out lines. */
  lemma BodyContainsRest(lines: seq<SrcLine>, sub: string)
    requires |lines| > 0 && Contains(Body(lines[1..]), sub)
    ensures Contains(Body(lines), sub)
  {
    var first := Line(lines[0].indent, lines[0].text);
    var rest := Body(lines[1..]);
    ContainsMiddle(first, rest, "");
    assert first + rest + "" == Body(lines);
    ContainsTrans(Body(lines), rest, sub);
  }

  /** Every line's text appears in the rendered statement. */
  lemma RenderContains(lines: seq<SrcLine>, closing: nat, k: nat)
    requires k < |lines|
    ensures Contains(Render(lines, closing), lines[k].text)
  {
    BodyContains(lines, k);
    ContainsMiddle("\n", Body(lines), Spaces(closing));
    ContainsTrans(Render(lines, closing), Body(lines), lines[k].text);
  }

  /** A piece of one line's text appears in the rendered statement. */
  lemma RenderContainsPiece(lines: seq<SrcLine>, closing: nat, k: nat, before: string, piece: string, after: string)
    requires k < |lines| && lines[k].text == before + piece + after
    ensures Contains(Render(lines, closing), piece)
  {
    RenderContains(lines, closing, k);
    ContainsMiddle(before, piece, after);
    ContainsTrans(Render(lines, closing), lines[k].text, piece);
  }

  /** A line's closing piece appears in the rendered statement. */
  lemma RenderContainsTail(lines: seq<SrcLine>, closing: nat, k: nat, before: string, piece: string)
    requires k < |lines| && lines[k].text == before + piece
    ensures Contains(Render(lines, closing), piece)
  {
    RenderContains(lines, closing, k);
    assert OccursAt(lines[k].text, piece, |before|);
    ContainsTrans(Render(lines, closing), lines[k].text, piece);
  }

  predicate IsDigit(c: char)
  {
    '0' <= c <= '9'
  }

  predicate AllDigits(s: string)
  {
    forall i :: 0 <= i < |s| ==> IsDigit(s[i])
  }

  function DigitChar(d: nat): (c: char)
    requires d < 10
    ensures IsDigit(c) && c as int - '0' as int == d
  {
    ('0' as int + d) as char
  }

  /** Decimal digits of a natural number, most significant first, no leading zeros. */
  function NatDigits(n: nat): (r: string)
    ensures |r| >= 1 && AllDigits(r)
    decreases n
  {
    if n < 10 then [DigitChar(n)] else NatDigits(n / 10) + [DigitChar(n % 10)]
  }

  /** What an f-string or `str()` prints for a Python `int`. */
  function DecimalString(n: int): string
  {
    if n < 0 then "-" + NatDigits(-n) else NatDigits(n)
  }

  /** A long literal of the algebra dialect: the decimal number followed by `L`. */
  function LongLiteral(n: int): string
  {
    DecimalString(n) + "L"
  }

  /** The number a string of decimal digits denotes. */
  function DigitsValue(s: string): nat
    requires AllDigits(s)
  {
    if s == [] then 0 else DigitsValue(s[..|s| - 1]) * 10 + (s[|s| - 1] as int - '0' as int)
  }

  /** Reads back an optionally signed decimal number; the partner of `DecimalString`. */
  function ParseDecimal(s: string): Option<int>
  {
    if |s| >= 2 && s[0] == '-' && AllDigits(s[1..]) then Some(0 - DigitsValue(s[1..]))
    else if |s| >= 1 && AllDigits(s) then Some(DigitsValue(s))
    else None
  }

  lemma {:induction false} NatDigitsValue(n: nat)
    ensures DigitsValue(NatDigits(n)) == n
    decreases n
  {
    if n >= 10 {
      var s := NatDigits(n);
      assert s[..|s| - 1] == NatDigits(n / 10);
      NatDigitsValue(n / 10);
    }
  }

  /** Printing an integer and reading it back gives the same integer. */
  lemma DecimalRoundTrip(n: int)
    ensures ParseDecimal(DecimalString(n)) == Some(n)
  {
    var s := DecimalString(n);
    if n < 0 {
      assert s[1..] == NatDigits(-n);
      NatDigitsValue(-n);
    } else {
      assert IsDigit(s[0]);
      NatDigitsValue(n);
    }
  }

  /** Distinct ids give distinct long literals. */
  lemma LongLiteralInjective(a: int, b: int)
    requires LongLiteral(a) == LongLiteral(b)
    ensures a == b
  {
    var la, lb := LongLiteral(a), LongLiteral(b);
    assert DecimalString(a) == la[..|la| - 1];
    assert DecimalString(b) == lb[..|lb| - 1];
    DecimalRoundTrip(a);
    DecimalRoundTrip(b);
  }
}

=== FILE: tsp.dfy ===
/** The TSP repository (repository/tsp.py): the statement each operation builds,
    the operations that run them through the executor, and the two operations
    that talk to the session manager directly. Every statement is modelled as
    the exact text the f-string produces, with the entity name `TSP` filled in. */
module Tsp {

  import opened Wrappers
  import opened Strings
  import opened Wire
  import opened Sessions
  import opened Base

  /** The repository's entity (node type) name. */
  const Entity: string := "TSP"

  /** The fields of the TSP model, in declaration order. */
  const TspFields: seq<string> := ["node_id", "id", "name"]

  // ---------------------------------------------------------------------------
  // create_tsp

  /** The selection that re-fetches the new node by its `id` property. */
  function RefetchById(id: string): string
  {
    AlgebraMatch(Entity, [("id", ArgStr(id))])
  }

  /** The one row of values the new node is inserted with. */
  function NodeValues(id: string, name: string): string
  {
    "[['" + id + "','" + name + "']]"
  }

  /** The selection of the TSP type node by its name. */
  function TypeSelection(tspTypeName: string): string
  {
    "GRAPH::SELECT('TSP_TYPE'.'name' = '" + tspTypeName + "')"
  }

  /** The lines of `create_tsp`'s statement, as the f-string writes them. */
  function CreateTspLines(id: string, name: string, tspTypeName: string): seq<SrcLine>
  {
    [SrcLine(12, "LET"),
     SrcLine(16, "@new_tsp = GRAPH::INSERT_NODES('TSP',VALUES([STRING,STRING], " + "[['" + id + "','" + name + "']]" + ")),"),
     SrcLine(16, "@v = GRAPH::SET(@new_tsp, 2, ['TSP'.'id', 'TSP'.'name'], FALSE),"),
     SrcLine(16, "@tsp_type = " + "GRAPH::SELECT('TSP_TYPE'.'name' = '" + tspTypeName + "')" + ","),
     SrcLine(16, "@tsp_data = PRODUCT( @new_tsp, @tsp_type),"),
     SrcLine(16, "@link_tsp_and_tsp_type = GRAPH::INSERT_EDGES('BELONGS_TO', 2, 3, @tsp_data),"),
     SrcLine(16, "@fetched_tsp = " + RefetchById(id) + ","),
     SrcLine(16, "@result = GRAPH::GET(@fetched_tsp, 0, ["),
     SrcLine(36, "'TSP'.'id',"),
     SrcLine(36, "'TSP'.'name'"),
     SrcLine(32, "])"),
     SrcLine(12, "IN"),
     SrcLine(16, "@result")]
  }

  /** The statement `create_tsp` builds. */
  function CreateTspStmt(id: string, name: string, tspTypeName: string): string
  {
    Render(CreateTspLines(id, name, tspTypeName), 12)
  }

  /** Re-fetching by id selects on the `id` property, quoted as given. */
  lemma RefetchSelectsId(id: string)
    ensures RefetchById(id) == "GRAPH::SELECT('TSP'.'id' = '" + id + "')"
  {
    AlgebraSingleString(Entity, "id", id);
  }

  /** The new node is inserted with the given id and name, the row followed by
      the closing parentheses of `VALUES(` and `INSERT_NODES(`, linked to the type
      selected by its name, and fetched back by selecting on its `id`; every
      value is quoted as given. */
  lemma CreateTspInsertsAndRefetches(id: string, name: string, tspTypeName: string)
    ensures Contains(CreateTspStmt(id, name, tspTypeName), NodeValues(id, name) + ")),")
    ensures Contains(CreateTspStmt(id, name, tspTypeName), TypeSelection(tspTypeName))
    ensures Contains(CreateTspStmt(id, name, tspTypeName), RefetchById(id))
  {
    CreateTspInserts(id, name, tspTypeName);
    CreateTspSelectsType(id, name, tspTypeName);
    CreateTspRefetches(id, name, tspTypeName);
  }

  lemma CreateTspInserts(id: string, name: string, tspTypeName: string)
    ensures Contains(CreateTspStmt(id, name, tspTypeName), NodeValues(id, name) + ")),")
  {
    InsertLineSplit(id, name);
    RenderContainsTail(CreateTspLines(id, name, tspTypeName), 12, 1,
      "@new_tsp = GRAPH::INSERT_NODES('TSP',VALUES([STRING,STRING], ", NodeValues(id, name) + ")),");
  }

  /** Where the row of values sits in the insertion line. */
  lemma InsertLineSplit(id: string, name: string)
    ensures "@new_tsp = GRAPH::INSERT_NODES('TSP',VALUES([STRING,STRING], " + "[['" + id + "','" + name + "']]" + "))," ==
            "@new_tsp = GRAPH::INSERT_NODES('TSP',VALUES([STRING,STRING], " + (NodeValues(id, name) + ")),")
  {
  }

  lemma CreateTspSelectsType(id: string, name: string, tspTypeName: string)
    ensures Contains(CreateTspStmt(id, name, tspTypeName), TypeSelection(tspTypeName))
  {
    TypeLineSplit(tspTypeName);
    RenderContainsPiece(CreateTspLines(id, name, tspTypeName), 12, 3, "@tsp_type = ", TypeSelection(tspTypeName), ",");
  }

  /** Where the type selection sits in its line. */
  lemma TypeLineSplit(tspTypeName: string)
    ensures "@tsp_type = " + "GRAPH::SELECT('TSP_TYPE'.'name' = '" + tspTypeName + "')" + "," ==
            "@tsp_type = " + TypeSelection(tspTypeName) + ","
  {
  }

  lemma CreateTspRefetches(id: string, name: string, tspTypeName: string)
    ensures Contains(CreateTspStmt(id, name, tspTypeName), RefetchById(id))
  {
    RenderContainsPiece(CreateTspLines(id, name, tspTypeName), 12, 6, "@fetched_tsp = ", RefetchById(id), ",");
  }

  // ---------------------------------------------------------------------------
  // add_country_to_tsp, add_time_slot_to_tsp, add_data_requirement_to_tsp

  /** The edge insertion the link statements share. */
  function InsertEdges(edgeLabel: string): string
  {
    "GRAPH::INSERT_EDGES('" + edgeLabel + "', 0, 1, @oids)"
  }

  /** A row of two node ids as long literals. */
  function IdPair(first: int, second: int): string
  {
    "[[" + LongLiteral(first) + ", " + LongLiteral(second) + "]]"
  }

  /** A one-row, one-column table holding a node id. */
  function SingleId(nodeId: int): string
  {
    "VALUES([LONG], [[" + LongLiteral(nodeId) + "]])"
  }

  /** The shape the three link statements share: the pair of node ids, an edge
      of `edgeLabel` between them, and the TSP node fetched back by its id, as
      the f-strings write them. They differ only in indentation, edge variable
      name and label. */
  function LinkLines(indent: nat, edgeVar: string, edgeLabel: string, tspNodeId: int, otherNodeId: int): seq<SrcLine>
  {
    [SrcLine(indent, "LET"),
     SrcLine(indent + 3, "@oids = VALUES([LONG, LONG], " + "[[" + LongLiteral(tspNodeId) + ", " + LongLiteral(otherNodeId) + "]]" + "),"),
     SrcLine(indent + 3, edgeVar + " = " + "GRAPH::INSERT_EDGES('" + edgeLabel + "', 0, 1, @oids)" + ","),
     SrcLine(indent + 3, "@result = GRAPH::GET(" + "VALUES([LONG], [[" + LongLiteral(tspNodeId) + "]])" + ", 0, ["),
     SrcLine(indent + 28, "'TSP'.'id',"),
     SrcLine(indent + 28, "'TSP'.'name'"),
     SrcLine(indent + 24, "])"),
     SrcLine(indent, "IN"),
     SrcLine(indent + 3, "@result")]
  }

  /** Where the pair of ids sits in its line. */
  lemma IdPairLineSplit(first: int, second: int)
    ensures "@oids = VALUES([LONG, LONG], " + "[[" + LongLiteral(first) + ", " + LongLiteral(second) + "]]" + ")," ==
            "@oids = VALUES([LONG, LONG], " + IdPair(first, second) + "),"
  {
  }

  /** Where the edge insertion sits in its line. */
  lemma InsertEdgesLineSplit(edgeVar: string, edgeLabel: string)
    ensures edgeVar + " = " + "GRAPH::INSERT_EDGES('" + edgeLabel + "', 0, 1, @oids)" + "," ==
            edgeVar + " = " + InsertEdges(edgeLabel) + ","
  {
  }

  /** Where the one-id table sits in the line that reads the TSP node back. */
  lemma SingleIdLineSplit(nodeId: int)
    ensures "@result = GRAPH::GET(" + "VALUES([LONG], [[" + LongLiteral(nodeId) + "]])" + ", 0, [" ==
            "@result = GRAPH::GET(" + SingleId(nodeId) + ", 0, ["
  {
  }

  function LinkStmt(indent: nat, edgeVar: string, edgeLabel: string, tspNodeId: int, otherNodeId: int): string
  {
    Render(LinkLines(indent, edgeVar, edgeLabel, tspNodeId, otherNodeId), indent)
  }

  /** The statement `add_country_to_tsp` builds. */
  function AddCountryToTspStmt(tspNodeId: int, countryNodeId: int): string
  {
    LinkStmt(12, "@link_tsp_and_country", "OPERATES_IN", tspNodeId, countryNodeId)
  }

  /** The statement `add_time_slot_to_tsp` builds (its edge variable keeps the
      name used for countries). */
  function AddTimeSlotToTspStmt(tspNodeId: int, timeSlotNodeId: int): string
  {
    LinkStmt(16, "@link_tsp_and_country", "HAS_AVAILABILITY", tspNodeId, timeSlotNodeId)
  }

  /** The statement `add_data_requirement_to_tsp` builds. */
  function AddDataRequirementToTspStmt(tspNodeId: int, dataReqNodeId: int): string
  {
    LinkStmt(8, "@link_tsp_and_data_req", "CAN_PROVIDE", tspNodeId, dataReqNodeId)
  }

  /** A link statement names both node ids as long literals, in order, inserts
      an edge with its label, and reads back the TSP node by its long id. */
  lemma LinkStmtNamesIdsAndLabel(indent: nat, edgeVar: string, edgeLabel: string, tspNodeId: int, otherNodeId: int)
    ensures var stmt := LinkStmt(indent, edgeVar, edgeLabel, tspNodeId, otherNodeId);
            Contains(stmt, IdPair(tspNodeId, otherNodeId)) &&
            Contains(stmt, InsertEdges(edgeLabel)) &&
            Contains(stmt, SingleId(tspNodeId))
  {
    var lines := LinkLines(indent, edgeVar, edgeLabel, tspNodeId, otherNodeId);
    IdPairLineSplit(tspNodeId, otherNodeId);
    RenderContainsPiece(lines, indent, 1, "@oids = VALUES([LONG, LONG], ", IdPair(tspNodeId, otherNodeId), "),");
    InsertEdgesLineSplit(edgeVar, edgeLabel);
    RenderContainsPiece(lines, indent, 2, edgeVar + " = ", InsertEdges(edgeLabel), ",");
    SingleIdLineSplit(tspNodeId);
    RenderContainsPiece(lines, indent, 3, "@result = GRAPH::GET(", SingleId(tspNodeId), ", 0, [");
  }

  /** `add_country_to_tsp` links the two ids with `OPERATES_IN` and reads back
      the TSP node. */
  lemma AddCountryLinksIds(tspNodeId: int, countryNodeId: int)
    ensures Contains(AddCountryToTspStmt(tspNodeId, countryNodeId), IdPair(tspNodeId, countryNodeId))
    ensures Contains(AddCountryToTspStmt(tspNodeId, countryNodeId), InsertEdges("OPERATES_IN"))
    ensures Contains(AddCountryToTspStmt(tspNodeId, countryNodeId), SingleId(tspNodeId))
  {
    LinkStmtNamesIdsAndLabel(12, "@link_tsp_and_country", "OPERATES_IN", tspNodeId, countryNodeId);
  }

  /** `add_time_slot_to_tsp` links the two ids with `HAS_AVAILABILITY` and reads
      back the TSP node. */
  lemma AddTimeSlotLinksIds(tspNodeId: int, timeSlotNodeId: int)
    ensures Contains(AddTimeSlotToTspStmt(tspNodeId, timeSlotNodeId), IdPair(tspNodeId, timeSlotNodeId))
    ensures Contains(AddTimeSlotToTspStmt(tspNodeId, timeSlotNodeId), InsertEdges("HAS_AVAILABILITY"))
    ensures Contains(AddTimeSlotToTspStmt(tspNodeId, timeSlotNodeId), SingleId(tspNodeId))
  {
    LinkStmtNamesIdsAndLabel(16, "@link_tsp_and_country", "HAS_AVAILABILITY", tspNodeId, timeSlotNodeId);
  }

  /** `add_data_requirement_to_tsp` links the two ids with `CAN_PROVIDE` and
      reads back the TSP node. */
  lemma AddDataRequirementLinksIds(tspNodeId: int, dataReqNodeId: int)
    ensures Contains(AddDataRequirementToTspStmt(tspNodeId, dataReqNodeId), IdPair(tspNodeId, dataReqNodeId))
    ensures Contains(AddDataRequirementToTspStmt(tspNodeId, dataReqNodeId), InsertEdges("CAN_PROVIDE"))
    ensures Contains(AddDataRequirementToTspStmt(tspNodeId, dataReqNodeId), SingleId(tspNodeId))
  {
    LinkStmtNamesIdsAndLabel(8, "@link_tsp_and_data_req", "CAN_PROVIDE", tspNodeId, dataReqNodeId);
  }

  // ---------------------------------------------------------------------------
  // get_tsp

  function GetTspLines(kwargs: Kwargs): seq<SrcLine>
  {
    [SrcLine(8, "LET"),
     SrcLine(12, "@tsp = " + AlgebraMatch(Entity, kwargs) + ","),
     SrcLine(12, "@result = GRAPH::GET(@tsp, 0, ["),
     SrcLine(16, "'TSP'.'id',"),
     SrcLine(16, "'TSP'.'name'"),
     SrcLine(12, "])"),
     SrcLine(8, "IN"),
     SrcLine(12, "@result")]
  }

  /** The statement `get_tsp` builds from its keyword filters. */
  function GetTspStmt(kwargs: Kwargs): string
  {
    Render(GetTspLines(kwargs), 8)
  }

  /** The statement holds the selection built from the filters. */
  lemma GetTspHoldsSelection(kwargs: Kwargs)
    ensures Contains(GetTspStmt(kwargs), AlgebraMatch(Entity, kwargs))
  {
    var lines := GetTspLines(kwargs);
    RenderContains(lines, 8, 1);
    ContainsMiddle("@tsp = ", AlgebraMatch(Entity, kwargs), ",");
    ContainsTrans(GetTspStmt(kwargs), lines[1].text, AlgebraMatch(Entity, kwargs));
  }

  /** Without a filter that has a value, `get_tsp` scans every TSP node. */
  lemma GetTspWithoutFiltersScans(kwargs: Kwargs)
    requires forall j :: 0 <= j < |kwargs| ==> kwargs[j].1.ArgNone?
    ensures Contains(GetTspStmt(kwargs), "GRAPH::SCAN('" + Entity + "')")
  {
    AlgebraAllNoneScans(Entity, kwargs);
    GetTspHoldsSelection(kwargs);
  }

  // ---------------------------------------------------------------------------
  // get_list_of_tsp_by_type

  /** The property map that matches the type node by name. */
  function TypeNameMap(tspTypeName: string): string
  {
    "{ name : '" + tspTypeName + "'}"
  }

  function ListByTypeLines(tspTypeName: string): seq<SrcLine>
  {
    [SrcLine(16, "MATCH (tsp_type: TSP_TYPE " + "{ name : '" + tspTypeName + "'}" + " )<-[:BELONGS_TO]-(tsp:TSP)"),
     SrcLine(16, "RETURN tsp as node_id, "),
     SrcLine(23, "tsp.id as id, "),
     SrcLine(23, "tsp.name as name")]
  }

  /** The Cypher statement `get_list_of_tsp_by_type` builds. */
  function GetListOfTspByTypeStmt(tspTypeName: string): string
  {
    Render(ListByTypeLines(tspTypeName), 16)
  }

  /** The type node is matched by the name exactly as given. */
  lemma ListByTypeMatchesName(tspTypeName: string)
    ensures Contains(GetListOfTspByTypeStmt(tspTypeName), TypeNameMap(tspTypeName))
  {
    MatchLineSplit(tspTypeName);
    RenderContainsPiece(ListByTypeLines(tspTypeName), 16, 0,
      "MATCH (tsp_type: TSP_TYPE ", TypeNameMap(tspTypeName), " )<-[:BELONGS_TO]-(tsp:TSP)");
  }

  /** Where the name map sits in the match line. */
  lemma MatchLineSplit(tspTypeName: string)
    ensures "MATCH (tsp_type: TSP_TYPE " + "{ name : '" + tspTypeName + "'}" + " )<-[:BELONGS_TO]-(tsp:TSP)" ==
            "MATCH (tsp_type: TSP_TYPE " + TypeNameMap(tspTypeName) + " )<-[:BELONGS_TO]-(tsp:TSP)"
  {
  }

  // ---------------------------------------------------------------------------
  // update_tsp_by_id

  /** What the f-string prints for the optional new name: the name, or `None`. */
  function NameText(name: Option<string>): string
  {
    match name
    case None => "None"
    case Some(n) => n
  }

  /** The row of the node id and the new name. */
  function IdNamePair(tspNodeId: int, name: Option<string>): string
  {
    "[[" + LongLiteral(tspNodeId) + ", '" + NameText(name) + "']]"
  }

  function UpdateLines(tspNodeId: int, name: Option<string>): seq<SrcLine>
  {
    [SrcLine(8, "LET"),
     SrcLine(12, "@new_values = VALUES([LONG, STRING], " + "[[" + LongLiteral(tspNodeId) + ", '" + NameText(name) + "']]" + "),"),
     SrcLine(12, "@v = GRAPH::SET(@new_values, 0, [NULL, 'TSP'.'name'], TRUE),"),
     SrcLine(12, "@result = GRAPH::GET(" + "VALUES([LONG], [[" + LongLiteral(tspNodeId) + "]])" + ", 0, ["),
     SrcLine(32, "'TSP'.'id',"),
     SrcLine(32, "'TSP'.'name'"),
     SrcLine(28, "])"),
     SrcLine(0, ""),
     SrcLine(8, "IN"),
     SrcLine(12, "@result")]
  }

  /** The statement `update_tsp_by_id` builds. */
  function UpdateTspByIdStmt(tspNodeId: int, name: Option<string>): string
  {
    Render(UpdateLines(tspNodeId, name), 8)
  }

  /** The update addresses the node by its long id, in the new values and in the read-back, and sets the name as
      printed (a missing name is printed as `None`). */
  lemma UpdateAddressesNodeById(tspNodeId: int, name: Option<string>)
    ensures Contains(UpdateTspByIdStmt(tspNodeId, name), IdNamePair(tspNodeId, name))
    ensures Contains(UpdateTspByIdStmt(tspNodeId, name), SingleId(tspNodeId))
  {
    var lines := UpdateLines(tspNodeId, name);
    NewValuesLineSplit(tspNodeId, name);
    RenderContainsPiece(lines, 8, 1, "@new_values = VALUES([LONG, STRING], ", IdNamePair(tspNodeId, name), "),");
    SingleIdLineSplit(tspNodeId);
    RenderContainsPiece(lines, 8, 3, "@result = GRAPH::GET(", SingleId(tspNodeId), ", 0, [");
  }

  /** Where the row of id and name sits in its line. */
  lemma NewValuesLineSplit(tspNodeId: int, name: Option<string>)
    ensures "@new_values = VALUES([LONG, STRING], " + "[[" + LongLiteral(tspNodeId) + ", '" + NameText(name) + "']]" + ")," ==
            "@new_values = VALUES([LONG, STRING], " + IdNamePair(tspNodeId, name) + "),"
  {
  }

  // ---------------------------------------------------------------------------
  // delete_tsp_by_id

  /** The removal of the node with the given id. */
  function RemoveNodeText(nodeId: int): string
  {
    "GRAPH::REMOVE(VALUES([LONG], [[" + LongLiteral(nodeId) + "]]), NULL)"
  }

  /** The statement `delete_tsp_by_id` builds. */
  function DeleteTspByIdStmt(tspNodeId: int): string
  {
    Render([SrcLine(8, RemoveNodeText(tspNodeId))], 8)
  }

  /** A one-line statement determines its line. */
  lemma SingleLineInjective(indent: nat, x: string, y: string)
    requires Render([SrcLine(indent, x)], indent) == Render([SrcLine(indent, y)], indent)
    ensures x == y
  {
    var rx, ry := Render([SrcLine(indent, x)], indent), Render([SrcLine(indent, y)], indent);
    assert Body([SrcLine(indent, x)]) == Line(indent, x) + Body([]);
    assert Body([SrcLine(indent, y)]) == Line(indent, y) + Body([]);
    assert rx == "\n" + Spaces(indent) + x + ("\n" + Spaces(indent));
    assert ry == "\n" + Spaces(indent) + y + ("\n" + Spaces(indent));
    assert x == rx[1 + indent..|rx| - 1 - indent];
    assert y == ry[1 + indent..|ry| - 1 - indent];
  }

  /** The removal text determines the node id. */
  lemma RemoveNodeTextInjective(a: int, b: int)
    requires RemoveNodeText(a) == RemoveNodeText(b)
    ensures a == b
  {
    var p := "GRAPH::REMOVE(VALUES([LONG], [[";
    var ta, tb := RemoveNodeText(a), RemoveNodeText(b);
    assert LongLiteral(a) == ta[|p|..|ta| - 10];
    assert LongLiteral(b) == tb[|p|..|tb| - 10];
    LongLiteralInjective(a, b);
  }

  /** The deletion statement names exactly one node: distinct ids give
      distinct statements. */
  lemma DeleteStmtInjective(a: int, b: int)
    requires DeleteTspByIdStmt(a) == DeleteTspByIdStmt(b)
    ensures a == b
  {
    SingleLineInjective(8, RemoveNodeText(a), RemoveNodeText(b));
    RemoveNodeTextInjective(a, b);
  }

  // ---------------------------------------------------------------------------
  // remove_data_requirement_from_tsp and check_tsp_data_req_connection

  /** The lookup of the `CAN_PROVIDE` edge from the TSP node to the data
      requirement node, projected onto the edge's oid. */
  function ConnectLookup(tspNodeId: int, dataReqNodeId: int): string
  {
    "PROJECT(GRAPH::CONNECT( VALUES([LONG, LONG], [[" + LongLiteral(tspNodeId) + ", " + LongLiteral(dataReqNodeId) +
    "]]), ['CAN_PROVIDE']),[2])"
  }

  /** The lookup `remove_data_requirement_from_tsp` runs. */
  function RemoveLookupStmt(tspNodeId: int, dataReqNodeId: int): string
  {
    Render([SrcLine(12, ConnectLookup(tspNodeId, dataReqNodeId))], 12)
  }

  /** The lookup `check_tsp_data_req_connection` runs. */
  function CheckLookupStmt(tspNodeId: int, dataReqNodeId: int): string
  {
    Render([SrcLine(20, ConnectLookup(tspNodeId, dataReqNodeId))], 20)
  }

  /** The removal of the edge whose oid was decoded from the lookup, printed as
      the decoded value followed by `L`. */
  function RemoveEdgeStmt(edgeOid: PyValue): string
  {
    "GRAPH::REMOVE(VALUES([LONG], [[" + PyText(edgeOid) + "L" + "]]), NULL)"
  }

  /** The two operations look up the same connection, and the removal of a
      decoded integer oid is the same removal `delete_tsp_by_id` writes for a node. */
  lemma LookupsAgree(tspNodeId: int, dataReqNodeId: int)
    ensures Contains(RemoveLookupStmt(tspNodeId, dataReqNodeId), ConnectLookup(tspNodeId, dataReqNodeId))
    ensures Contains(CheckLookupStmt(tspNodeId, dataReqNodeId), ConnectLookup(tspNodeId, dataReqNodeId))
  {
    RenderContains([SrcLine(12, ConnectLookup(tspNodeId, dataReqNodeId))], 12, 0);
    RenderContains([SrcLine(20, ConnectLookup(tspNodeId, dataReqNodeId))], 20, 0);
  }

  /** Removing an edge whose oid decoded to an integer is the same removal
      `delete_tsp_by_id` writes for a node with that id. */
  lemma RemoveEdgeIsNodeRemoval(oid: int)
    ensures RemoveEdgeStmt(PyInt(oid)) == RemoveNodeText(oid)
    ensures Contains(DeleteTspByIdStmt(oid), RemoveEdgeStmt(PyInt(oid)))
  {
    var p, d := "GRAPH::REMOVE(VALUES([LONG], [[", DecimalString(oid);
    assert p + d + "L" == p + (d + "L");
    DeleteHoldsRemoval(oid);
  }

  /** The deletion statement holds the removal text. */
  lemma DeleteHoldsRemoval(nodeId: int)
    ensures Contains(DeleteTspByIdStmt(nodeId), RemoveNodeText(nodeId))
  {
    RenderContains([SrcLine(8, RemoveNodeText(nodeId))], 8, 0);
  }

  /** The lookup's query. */
  function LookupQuery(s: Session, tspNodeId: int, dataReqNodeId: int): Query
  {
    CreateQuery(s, RemoveLookupStmt(tspNodeId, dataReqNodeId), "algebra")
  }

  /** What `remove_data_requirement_from_tsp` returns or raises, read off its
      events: the lookup runs with `max_rows = 1`; its failure propagates; no
      rows ends the operation quietly; a first row without columns raises
      `IndexError`; otherwise the removal of the decoded edge oid runs, and its
      failure propagates. `None` when `ev` are not such events. */
  ghost function RemoveOutcome(ev: seq<Event>, s: Session, tspNodeId: int, dataReqNodeId: int): Option<Outcome<Exc>>
  {
    var k := RunLength(ev);
    if k > |ev| then None
    else match QueryOutcome(ev[..k], s, LookupQuery(s, tspNodeId, dataReqNodeId), 1)
      case None => None
      case Some(Failure(e)) => if |ev| == k then Some(Fail(e)) else None
      case Some(Success(response)) =>
        if response.rows == [] then (if |ev| == k then Some(Pass) else None)
        else if response.rows[0].columnValues == [] then (if |ev| == k then Some(Fail(IndexError)) else None)
        else
          var remove := CreateQuery(s, RemoveEdgeStmt(ParseSparkseeValue(response.rows[0].columnValues[0])), "algebra");
          match QueryOutcome(ev[k..], s, remove, 1)
          case None => None
          case Some(Failure(e)) => Some(Fail(e))
          case Some(Success(_)) => Some(Pass)
  }

  /** `r` is what the operation whose events are `ev` returns or raises. */
  ghost predicate RemoveRun(ev: seq<Event>, s: Session, tspNodeId: int, dataReqNodeId: int, r: Outcome<Exc>)
  {
    RemoveOutcome(ev, s, tspNodeId, dataReqNodeId) == Some(r)
  }

  /** The lookup found an edge: it succeeded and its first row has a column. */
  ghost predicate EdgeFound(ev: seq<Event>, s: Session, tspNodeId: int, dataReqNodeId: int)
  {
    var lookup := LookupQuery(s, tspNodeId, dataReqNodeId);
    var k := RunLength(ev);
    k <= |ev| && QueryRun(ev[..k], s, lookup, 1) &&
    match QueryResult(ev[..k], s, lookup, 1)
    case Failure(_) => false
    case Success(response) => response.rows != [] && response.rows[0].columnValues != []
  }

  /** `remove_data_requirement_from_tsp` runs the lookup first, makes no session
      or transaction calls, and issues a second query exactly when the lookup
      found an edge; when the lookup returned no rows it returns quietly after
      one query. */
  lemma {:induction false} RemoveQueriesOnceOrTwice(ev: seq<Event>, s: Session, tspNodeId: int, dataReqNodeId: int, r: Outcome<Exc>)
    requires RemoveRun(ev, s, tspNodeId, dataReqNodeId, r)
    ensures ev[0].call == RunQuery(LookupQuery(s, tspNodeId, dataReqNodeId))
    ensures QueryCallsOnly(ev)
    ensures Count(ev, RunCall) == (if EdgeFound(ev, s, tspNodeId, dataReqNodeId) then 2 else 1)
    ensures Count(ev, CloseCall) <= 2
  {
    var lookup := LookupQuery(s, tspNodeId, dataReqNodeId);
    var k := RunLength(ev);
    var head := ev[..k];
    QueryRunCounts(head, s, lookup, 1);
    assert ev == head + ev[k..];
    if EdgeFound(ev, s, tspNodeId, dataReqNodeId) {
      var response := QueryResult(head, s, lookup, 1).value;
      var remove := CreateQuery(s, RemoveEdgeStmt(ParseSparkseeValue(response.rows[0].columnValues[0])), "algebra");
      QueryRunCounts(ev[k..], s, remove, 1);
      CountAppend(head, ev[k..], RunCall);
      CountAppend(head, ev[k..], CloseCall);
      QueryCallsOnlyAppend(head, ev[k..]);
    } else {
      assert ev == head;
    }
  }

  lemma QueryCallsOnlyAppend(a: seq<Event>, b: seq<Event>)
    requires QueryCallsOnly(a) && QueryCallsOnly(b)
    ensures QueryCallsOnly(a + b)
  {
    forall i | 0 <= i < |a + b|
      ensures KindOf((a + b)[i].call) in {RunCall, RowsCall, CloseCall}
    {
      if i < |a| {
        assert (a + b)[i] == a[i];
      } else {
        assert (a + b)[i] == b[i - |a|];
      }
    }
  }

  /** When the lookup found an edge, the second query removes exactly the edge
      whose oid the first column of the first row decodes to, again with
      `max_rows = 1`. */
  lemma RemoveTargetsFoundEdge(ev: seq<Event>, s: Session, tspNodeId: int, dataReqNodeId: int, r: Outcome<Exc>)
    requires RemoveRun(ev, s, tspNodeId, dataReqNodeId, r)
    requires EdgeFound(ev, s, tspNodeId, dataReqNodeId)
    ensures var k := RunLength(ev);
            var response := QueryResult(ev[..k], s, LookupQuery(s, tspNodeId, dataReqNodeId), 1).value;
            k < |ev| &&
            ev[k].call == RunQuery(CreateQuery(s, RemoveEdgeStmt(ParseSparkseeValue(response.rows[0].columnValues[0])), "algebra"))
  {
  }

  // ---------------------------------------------------------------------------
  // get_recommendations

  /** Python truthiness of an optional list: present and non-empty. */
  predicate Truthy(xs: Option<seq<string>>)
  {
    xs.Some? && xs.value != []
  }

  /** Python truthiness of an optional condition: present and non-empty. */
  predicate Present(condition: Option<string>)
  {
    condition.Some? && condition.value != ""
  }

  /** How many conditions are present. */
  function PresentCount(conditions: seq<Option<string>>): nat
  {
    if conditions == [] then 0
    else PresentCount(conditions[..|conditions| - 1]) + (if Present(conditions[|conditions| - 1]) then 1 else 0)
  }

  /** `[c for c in conditions if c]`: the present conditions in order. There is
      one entry per present condition, and the condition at index `i` lands at
      the position given by the number of present conditions before it. */
  function PresentConditions(conditions: seq<Option<string>>): (r: seq<string>)
    ensures forall j :: 0 <= j < |r| ==> r[j] != ""
    ensures |r| == PresentCount(conditions)
    ensures forall i :: 0 <= i < |conditions| && Present(conditions[i]) ==>
              PresentCount(conditions[..i]) < |r| && r[PresentCount(conditions[..i])] == conditions[i].value
  {
    if conditions == [] then []
    else
      var init, last := conditions[..|conditions| - 1], conditions[|conditions| - 1];
      assert forall i :: 0 <= i < |init| ==> init[..i] == conditions[..i];
      PresentConditions(init) + (if Present(last) then [last.value] else [])
  }

  /** The three conditions, in the order the clause lists them. */
  function RecommendationConditions(countries: Option<seq<string>>, tspTypes: Option<seq<string>>,
                                    timeSlots: Option<seq<string>>): seq<Option<string>>
  {
    [CreateConditionsFromList("tsp_type.name", tspTypes),
     CreateConditionsFromList("country.name", countries),
     CreateConditionsFromList("time_slot.name", timeSlots)]
  }

  /** The WHERE clause of `get_recommendations`, with its three branches. */
  function WhereClause(countries: Option<seq<string>>, tspTypes: Option<seq<string>>, timeSlots: Option<seq<string>>): string
  {
    var conditions := RecommendationConditions(countries, tspTypes, timeSlots);
    var tspTypesCondition, countriesCondition, timeSlotsCondition := conditions[0], conditions[1], conditions[2];
    if Truthy(tspTypes) && Truthy(countries) && timeSlotsCondition.Some? && timeSlotsCondition.value != "" then
      "WHERE " + tspTypesCondition.value + " AND " + countriesCondition.value + " AND " + timeSlotsCondition.value
    else if tspTypes.None? && countries.None? && timeSlotsCondition.None? then
      ""
    else
      "WHERE " + Join(" AND ", PresentConditions(conditions))
  }

  /** Condition groups are never empty text. */
  lemma ConditionNonEmpty(condition: string, provided: Option<seq<string>>)
    ensures CreateConditionsFromList(condition, provided).Some? ==> CreateConditionsFromList(condition, provided).value != ""
  {
  }

  /** The three branches follow one rule: no clause when types and countries
      are `None` and no time slot is given, otherwise `WHERE` followed by the
      given groups joined by ` AND `, in the order types, countries, time slots.
      The first branch is the case where all three groups are given. */
  lemma {:induction false} WhereClauseRule(countries: Option<seq<string>>, tspTypes: Option<seq<string>>, timeSlots: Option<seq<string>>)
    ensures WhereClause(countries, tspTypes, timeSlots) ==
              if tspTypes.None? && countries.None? && !Truthy(timeSlots) then ""
              else "WHERE " + Join(" AND ", PresentConditions(RecommendationConditions(countries, tspTypes, timeSlots)))
  {
    if Truthy(tspTypes) && Truthy(countries) && Truthy(timeSlots) {
      WhereClauseAllGiven(countries, tspTypes, timeSlots);
    } else {
      var conditions := RecommendationConditions(countries, tspTypes, timeSlots);
      assert conditions[2].Some? <==> Truthy(timeSlots);
    }
  }

  /** With all three groups given, the first branch is the joined form. */
  lemma WhereClauseAllGiven(countries: Option<seq<string>>, tspTypes: Option<seq<string>>, timeSlots: Option<seq<string>>)
    requires Truthy(tspTypes) && Truthy(countries) && Truthy(timeSlots)
    ensures WhereClause(countries, tspTypes, timeSlots) ==
              "WHERE " + Join(" AND ", PresentConditions(RecommendationConditions(countries, tspTypes, timeSlots)))
  {
    var conditions := RecommendationConditions(countries, tspTypes, timeSlots);
    var t, c, s := conditions[0].value, conditions[1].value, conditions[2].value;
    ConditionNonEmpty("tsp_type.name", tspTypes);
    ConditionNonEmpty("country.name", countries);
    ConditionNonEmpty("time_slot.name", timeSlots);
    assert conditions == [Some(t), Some(c), Some(s)];
    PresentAllGiven(t, c, s);
    JoinThree(" AND ", t, c, s);
    assert WhereClause(countries, tspTypes, timeSlots) == "WHERE " + t + " AND " + c + " AND " + s;
  }

  /** Three given, non-empty conditions all survive the filter, in order. */
  lemma PresentAllGiven(t: string, c: string, s: string)
    requires t != "" && c != "" && s != ""
    ensures PresentConditions([Some(t), Some(c), Some(s)]) == [t, c, s]
  {
    var conditions := [Some(t), Some(c), Some(s)];
    assert conditions[..2] == [Some(t), Some(c)];
    assert conditions[..2][..1] == [Some(t)];
    assert conditions[..2][..1][..0] == [];
    assert PresentConditions(conditions[..1]) == [t];
    assert PresentConditions(conditions[..2]) == [t, c];
  }

  lemma JoinThree(sep: string, t: string, c: string, s: string)
    ensures Join(sep, [t, c, s]) == t + sep + c + sep + s
  {
    assert [t, c, s][1..] == [c, s] && [c, s][1..] == [s];
    assert Join(sep, [s]) == s;
    assert Join(sep, [c, s]) == c + sep + s;
    assert Join(sep, [t, c, s]) == t + sep + (c + sep + s);
  }

  /** The clause is empty exactly when types and countries are `None` and no
      time slot is given. */
  lemma WhereClauseEmptyIff(countries: Option<seq<string>>, tspTypes: Option<seq<string>>, timeSlots: Option<seq<string>>)
    ensures WhereClause(countries, tspTypes, timeSlots) == "" <==>
              tspTypes.None? && countries.None? && !Truthy(timeSlots)
  {
    WhereClauseRule(countries, tspTypes, timeSlots);
  }

  /** Every condition that is present survives the filter, so the filtered list
      is empty exactly when no list is truthy. */
  lemma {:induction false} PresentConditionsEmptyIff(countries: Option<seq<string>>, tspTypes: Option<seq<string>>,
                                                     timeSlots: Option<seq<string>>)
    ensures PresentConditions(RecommendationConditions(countries, tspTypes, timeSlots)) == [] <==>
              !Truthy(tspTypes) && !Truthy(countries) && !Truthy(timeSlots)
  {
    var conditions := RecommendationConditions(countries, tspTypes, timeSlots);
    ConditionNonEmpty("tsp_type.name", tspTypes);
    ConditionNonEmpty("country.name", countries);
    ConditionNonEmpty("time_slot.name", timeSlots);
    assert conditions[..2][..1] == conditions[..1];
    assert conditions[..1][..0] == [];
    var p1 := PresentConditions(conditions[..1]);
    var p2 := PresentConditions(conditions[..2]);
    assert p1 == [] <==> !Truthy(tspTypes);
    assert p2 == [] <==> !Truthy(tspTypes) && !Truthy(countries);
  }

  /** The clause is a bare `WHERE ` exactly when the types or the countries are
      a list rather than `None` and no list is non-empty. */
  lemma WhereClauseBareIff(countries: Option<seq<string>>, tspTypes: Option<seq<string>>, timeSlots: Option<seq<string>>)
    ensures WhereClause(countries, tspTypes, timeSlots) == "WHERE " <==>
              !(tspTypes.None? && countries.None? && !Truthy(timeSlots)) &&
              !Truthy(tspTypes) && !Truthy(countries) && !Truthy(timeSlots)
  {
    WhereClauseRule(countries, tspTypes, timeSlots);
    PresentConditionsEmptyIff(countries, tspTypes, timeSlots);
    var present := PresentConditions(RecommendationConditions(countries, tspTypes, timeSlots));
    JoinEmptyIff(" AND ", present);
    var w := "WHERE " + Join(" AND ", present);
    if w == "WHERE " {
      assert Join(" AND ", present) == w[6..];
    }
  }

  /** A single type with the other lists `None` gives only the type group. */
  lemma WhereClauseSingleType(tspType: string)
    ensures WhereClause(None, Some([tspType]), None) == "WHERE (tsp_type.name='" + tspType + "')"
  {
    var conditions := RecommendationConditions(None, Some([tspType]), None);
    ConditionsSingle("tsp_type.name", tspType);
    var t := conditions[0].value;
    assert conditions[..2][..1] == conditions[..1];
    assert conditions[..1][..0] == [];
    assert PresentConditions(conditions[..1]) == [t];
    assert PresentConditions(conditions[..2]) == [t];
    assert PresentConditions(conditions) == [t];
  }

  /** An empty list of types with the other lists `None` gives a bare `WHERE `. */
  lemma WhereClauseEmptyTypeList()
    ensures WhereClause(None, Some([]), None) == "WHERE "
  {
    WhereClauseBareIff(None, Some([]), None);
  }

  function RecommendationsLines(whereClause: string): seq<SrcLine>
  {
    [SrcLine(16, "MATCH (tsp_type:TSP_TYPE)<-[:BELONGS_TO]-(tsp:TSP)-[:OPERATES_IN]->(country: COUNTRY),"),
     SrcLine(23, "(tsp:TSP)-[:HAS_AVAILABILITY]->(time_slot: TIME_SLOT)"),
     SrcLine(16, whereClause),
     SrcLine(16, "RETURN DISTINCT tsp as node_id,"),
     SrcLine(23, "tsp.id as id,"),
     SrcLine(23, "tsp.name as name,"),
     SrcLine(23, "tsp_type.name as type;")]
  }

  /** The Cypher statement `get_recommendations` builds. */
  function GetRecommendationsStmt(countries: Option<seq<string>>, tspTypes: Option<seq<string>>,
                                  timeSlots: Option<seq<string>>): string
  {
    Render(RecommendationsLines(WhereClause(countries, tspTypes, timeSlots)), 16)
  }

  /** The statement carries its WHERE clause. */
  lemma RecommendationsCarryWhereClause(countries: Option<seq<string>>, tspTypes: Option<seq<string>>,
                                        timeSlots: Option<seq<string>>)
    ensures Contains(GetRecommendationsStmt(countries, tspTypes, timeSlots), WhereClause(countries, tspTypes, timeSlots))
  {
    LinesCarryClause(WhereClause(countries, tspTypes, timeSlots));
  }

  /** Whatever the clause, it appears in the rendered statement. */
  lemma LinesCarryClause(whereClause: string)
    ensures Contains(Render(RecommendationsLines(whereClause), 16), whereClause)
  {
    RenderContains(RecommendationsLines(whereClause), 16, 2);
  }

  /** The recommendation rows have four columns and the model three fields; the
      positional pairing drops the fourth (the type name). */
  lemma RecommendationRecordDropsType(row: Row)
    requires |row.columnValues| == 4
    ensures var record := Zip(TspFields, DecodeRow(row));
            |record| == 3 &&
            record[0] == ("node_id", ParseSparkseeValue(row.columnValues[0])) &&
            record[1] == ("id", ParseSparkseeValue(row.columnValues[1])) &&
            record[2] == ("name", ParseSparkseeValue(row.columnValues[2]))
  {
  }

  // ---------------------------------------------------------------------------
  // The decorated operations

  /** `create_tsp` through the executor. */
  method CreateTsp(sm: SparkseeSessionManager, id: string, name: string, tspTypeName: string, size: int := 1)
    returns (r: Result<Fetched, Exc>)
    requires sm.Ready()
    modifies sm.stub
    ensures old(sm.stub.trace) <= sm.stub.trace
    ensures ExecutorRun(sm.stub.trace[|old(sm.stub.trace)|..], sm.session.value, TspFields,
                        CreateTspStmt(id, name, tspTypeName), "algebra", size, r)
  {
    r := QueryExecutor(TspFields, sm, CreateTspStmt(id, name, tspTypeName), "algebra", size);
  }

  /** `add_country_to_tsp` through the executor. */
  method AddCountryToTsp(sm: SparkseeSessionManager, tspNodeId: int, countryNodeId: int, size: int := 1)
    returns (r: Result<Fetched, Exc>)
    requires sm.Ready()
    modifies sm.stub
    ensures old(sm.stub.trace) <= sm.stub.trace
    ensures ExecutorRun(sm.stub.trace[|old(sm.stub.trace)|..], sm.session.value, TspFields,
                        AddCountryToTspStmt(tspNodeId, countryNodeId), "algebra", size, r)
  {
    r := QueryExecutor(TspFields, sm, AddCountryToTspStmt(tspNodeId, countryNodeId), "algebra", size);
  }

  /** `add_time_slot_to_tsp` through the executor. */
  method AddTimeSlotToTsp(sm: SparkseeSessionManager, tspNodeId: int, timeSlotNodeId: int, size: int := 1)
    returns (r: Result<Fetched, Exc>)
    requires sm.Ready()
    modifies sm.stub
    ensures old(sm.stub.trace) <= sm.stub.trace
    ensures ExecutorRun(sm.stub.trace[|old(sm.stub.trace)|..], sm.session.value, TspFields,
                        AddTimeSlotToTspStmt(tspNodeId, timeSlotNodeId), "algebra", size, r)
  {
    r := QueryExecutor(TspFields, sm, AddTimeSlotToTspStmt(tspNodeId, timeSlotNodeId), "algebra", size);
  }

  /** `get_tsp` through the executor; `size` is not passed on to the builder. */
  method GetTsp(sm: SparkseeSessionManager, kwargs: Kwargs, size: int := 1)
    returns (r: Result<Fetched, Exc>)
    requires sm.Ready()
    modifies sm.stub
    ensures old(sm.stub.trace) <= sm.stub.trace
    ensures ExecutorRun(sm.stub.trace[|old(sm.stub.trace)|..], sm.session.value, TspFields,
                        GetTspStmt(kwargs), "algebra", size, r)
  {
    r := QueryExecutor(TspFields, sm, GetTspStmt(kwargs), "algebra", size);
  }

  /** `get_list_of_tsp_by_type` through the executor (Cypher). */
  method GetListOfTspByType(sm: SparkseeSessionManager, tspTypeName: string, size: int := 1)
    returns (r: Result<Fetched, Exc>)
    requires sm.Ready()
    modifies sm.stub
    ensures old(sm.stub.trace) <= sm.stub.trace
    ensures ExecutorRun(sm.stub.trace[|old(sm.stub.trace)|..], sm.session.value, TspFields,
                        GetListOfTspByTypeStmt(tspTypeName), "cypher", size, r)
  {
    r := QueryExecutor(TspFields, sm, GetListOfTspByTypeStmt(tspTypeName), "cypher", size);
  }

  /** `update_tsp_by_id` through the executor. */
  method UpdateTspById(sm: SparkseeSessionManager, tspNodeId: int, name: Option<string>, size: int := 1)
    returns (r: Result<Fetched, Exc>)
    requires sm.Ready()
    modifies sm.stub
    ensures old(sm.stub.trace) <= sm.stub.trace
    ensures ExecutorRun(sm.stub.trace[|old(sm.stub.trace)|..], sm.session.value, TspFields,
                        UpdateTspByIdStmt(tspNodeId, name), "algebra", size, r)
  {
    r := QueryExecutor(TspFields, sm, UpdateTspByIdStmt(tspNodeId, name), "algebra", size);
  }

  /** `delete_tsp_by_id` through the executor. */
  method DeleteTspById(sm: SparkseeSessionManager, tspNodeId: int, size: int := 1)
    returns (r: Result<Fetched, Exc>)
    requires sm.Ready()
    modifies sm.stub
    ensures old(sm.stub.trace) <= sm.stub.trace
    ensures ExecutorRun(sm.stub.trace[|old(sm.stub.trace)|..], sm.session.value, TspFields,
                        DeleteTspByIdStmt(tspNodeId), "algebra", size, r)
  {
    r := QueryExecutor(TspFields, sm, DeleteTspByIdStmt(tspNodeId), "algebra", size);
  }

  /** `add_data_requirement_to_tsp` through the executor. */
  method AddDataRequirementToTsp(sm: SparkseeSessionManager, tspNodeId: int, dataReqNodeId: int, size: int := 1)
    returns (r: Result<Fetched, Exc>)
    requires sm.Ready()
    modifies sm.stub
    ensures old(sm.stub.trace) <= sm.stub.trace
    ensures ExecutorRun(sm.stub.trace[|old(sm.stub.trace)|..], sm.session.value, TspFields,
                        AddDataRequirementToTspStmt(tspNodeId, dataReqNodeId), "algebra", size, r)
  {
    r := QueryExecutor(TspFields, sm, AddDataRequirementToTspStmt(tspNodeId, dataReqNodeId), "algebra", size);
  }

  /** `get_recommendations` through the executor (Cypher). The builder's own
      default of 100 is never used: the executor's default of 1 applies. */
  method GetRecommendations(sm: SparkseeSessionManager, countries: Option<seq<string>>, tspTypes: Option<seq<string>>,
                            timeSlots: Option<seq<string>>, size: int := 1)
    returns (r: Result<Fetched, Exc>)
    requires sm.Ready()
    modifies sm.stub
    ensures old(sm.stub.trace) <= sm.stub.trace
    ensures ExecutorRun(sm.stub.trace[|old(sm.stub.trace)|..], sm.session.value, TspFields,
                        GetRecommendationsStmt(countries, tspTypes, timeSlots), "cypher", size, r)
  {
    r := QueryExecutor(TspFields, sm, GetRecommendationsStmt(countries, tspTypes, timeSlots), "cypher", size);
  }

  // ---------------------------------------------------------------------------
  // The two undecorated operations

  /** `remove_data_requirement_from_tsp`. */
  method RemoveDataRequirementFromTsp(sm: SparkseeSessionManager, tspNodeId: int, dataReqNodeId: int)
    returns (r: Outcome<Exc>)
    requires sm.Ready()
    modifies sm.stub
    ensures old(sm.stub.trace) <= sm.stub.trace
    ensures RemoveRun(sm.stub.trace[|old(sm.stub.trace)|..], sm.session.value, tspNodeId, dataReqNodeId, r)
  {
    ghost var t0 := sm.stub.trace;
    ghost var s := sm.session.value;
    var response := sm.ExecuteQuery(RemoveLookupStmt(tspNodeId, dataReqNodeId), "algebra", 1);
    ghost var t1 := sm.stub.trace;
    if response.Failure? || response.value.rows == [] || response.value.rows[0].columnValues == [] {
      r := if response.Failure? then Fail(response.error)
           else if response.value.rows == [] then Pass
           else Fail(IndexError);
      RemoveRunEndsEarly(t1[|t0|..], s, tspNodeId, dataReqNodeId, response, r);
      return;
    }
    var rows := response.value.rows;
    var fetchedEdgeOid := ParseSparkseeValue(rows[0].columnValues[0]);
    var removed := sm.ExecuteQuery(RemoveEdgeStmt(fetchedEdgeOid), "algebra", 1);
    r := if removed.Failure? then Fail(removed.error) else Pass;
    RemoveRunRemoves(t0, t1, sm.stub.trace, s, tspNodeId, dataReqNodeId, response.value, removed, r);
  }

  /** The lookup alone makes up the run when it failed, found no row, or found
      a row without columns. */
  lemma RemoveRunEndsEarly(head: seq<Event>, s: Session, tspNodeId: int, dataReqNodeId: int,
                           response: Result<ResultRows, Exc>, r: Outcome<Exc>)
    requires QueryOutcome(head, s, CreateQuery(s, RemoveLookupStmt(tspNodeId, dataReqNodeId), "algebra"), 1) == Some(response)
    requires response.Success? ==> response.value.rows == [] || response.value.rows[0].columnValues == []
    requires r == (if response.Failure? then Fail(response.error)
                   else if response.value.rows == [] then Pass
                   else Fail(IndexError))
    ensures RemoveRun(head, s, tspNodeId, dataReqNodeId, r)
  {
    RunLengthPrefix(head, [], s, LookupQuery(s, tspNodeId, dataReqNodeId), 1);
    assert head + [] == head;
  }

  /** A lookup that found an edge followed by the removal's events make up the
      run; `t0`, `t1`, `t2` are the trace before, between and after the two queries. */
  lemma RemoveRunRemoves(t0: seq<Event>, t1: seq<Event>, t2: seq<Event>, s: Session, tspNodeId: int, dataReqNodeId: int,
                         response: ResultRows, removed: Result<ResultRows, Exc>, r: Outcome<Exc>)
    requires t0 <= t1 <= t2
    requires QueryOutcome(t1[|t0|..], s, CreateQuery(s, RemoveLookupStmt(tspNodeId, dataReqNodeId), "algebra"), 1) == Some(Success(response))
    requires response.rows != [] && response.rows[0].columnValues != []
    requires QueryOutcome(t2[|t1|..], s, CreateQuery(s, RemoveEdgeStmt(ParseSparkseeValue(response.rows[0].columnValues[0])), "algebra"), 1) == Some(removed)
    requires r == (if removed.Failure? then Fail(removed.error) else Pass)
    ensures RemoveRun(t2[|t0|..], s, tspNodeId, dataReqNodeId, r)
  {
    var head, tail := t1[|t0|..], t2[|t1|..];
    assert t2[|t0|..] == head + tail;
    RunLengthPrefix(head, tail, s, LookupQuery(s, tspNodeId, dataReqNodeId), 1);
  }

  /** What `check_tsp_data_req_connection` returns or raises, read off its
      events: the lookup runs with `max_rows = 1`; a failure propagates;
      otherwise the answer is whether any row came back. `None` when `ev` are
      not the events of one lookup. */
  ghost function CheckOutcome(ev: seq<Event>, s: Session, tspNodeId: int, dataReqNodeId: int): Option<Result<bool, Exc>>
  {
    match QueryOutcome(ev, s, CreateQuery(s, CheckLookupStmt(tspNodeId, dataReqNodeId), "algebra"), 1)
    case None => None
    case Some(Failure(e)) => Some(Failure(e))
    case Some(Success(response)) => Some(Success(response.rows != []))
  }

  /** `r` is what the check whose events are `ev` returns or raises. */
  ghost predicate CheckRun(ev: seq<Event>, s: Session, tspNodeId: int, dataReqNodeId: int, r: Result<bool, Exc>)
  {
    CheckOutcome(ev, s, tspNodeId, dataReqNodeId) == Some(r)
  }

  /** `check_tsp_data_req_connection`. */
  method CheckTspDataReqConnection(sm: SparkseeSessionManager, tspNodeId: int, dataReqNodeId: int)
    returns (r: Result<bool, Exc>)
    requires sm.Ready()
    modifies sm.stub
    ensures old(sm.stub.trace) <= sm.stub.trace
    ensures CheckRun(sm.stub.trace[|old(sm.stub.trace)|..], sm.session.value, tspNodeId, dataReqNodeId, r)
  {
    var response := sm.ExecuteQuery(CheckLookupStmt(tspNodeId, dataReqNodeId), "algebra", 1);
    if response.Failure? {
      return Failure(response.error);
    }
    if response.value.rows != [] {
      return Success(true);
    }
    return Success(false);
  }

  /** A connection is reported exactly when the lookup completed all three
      calls and its GetResultRows reply carried a row. */
  lemma CheckTrueIffRows(ev: seq<Event>, s: Session, tspNodeId: int, dataReqNodeId: int, r: Result<bool, Exc>)
    requires CheckRun(ev, s, tspNodeId, dataReqNodeId, r)
    ensures r == Success(true) <==>
              |ev| == 3 && ev[1].reply.RowsReply? && ev[1].reply.response.rows != [] && ev[2].reply == Done
  {
  }
}

=== FILE: wire.dfy ===
/** The shapes of the engine's protocol messages that the client layer reads or builds.
    Only the fields the client touches are kept. */
module Wire {

  import opened Wrappers

  /** A timestamp payload. Its conversion to a date-time is not modelled: the value
      is identified by the text Python prints for the converted date-time. */
  datatype Timestamp = Timestamp(printed: string)

  /** A floating-point payload, identified by the text Python prints for it. */
  datatype Double = Double(printed: string)

  /** One column of a result row. Every field may be present or absent; the
      engine normally sets exactly one. */
  datatype ColumnValue = ColumnValue(
    nullValue: bool,
    intValue: Option<int>,
    longValue: Option<int>,
    stringValue: Option<string>,
    timestampValue: Option<Timestamp>,
    doubleValue: Option<Double>,
    boolValue: Option<bool>,
    oidValue: Option<int>)

  datatype Row = Row(columnValues: seq<ColumnValue>)

  /** The page of rows returned by GetResultRows. */
  datatype ResultRows = ResultRows(rows: seq<Row>)

  /** The engine's handle for a session. */
  datatype Session = Session(id: int)

  /** A statement to run, in the field named after its dialect. */
  datatype Query = Query(session: Session, algebraQuery: Option<string>, cypherQuery: Option<string>)

  /** Names one open query of one session. */
  datatype ResultSetID = ResultSetID(session: Session, queryId: int)

  datatype ResultRowsArguments = ResultRowsArguments(id: ResultSetID, maxRows: int)
}

=== FILE: wrappers.dfy ===
/** Optional values and outcomes that stand in for Python's `None` and for raised exceptions. */
module Wrappers {

  /** A value that may be absent (Python `None`). */
  datatype Option<+T> = None | Some(value: T)

  /** The result of a call that either returns a value or raises. */
  datatype Result<+R, +E> = Success(value: R) | Failure(error: E)

  /** The result of a call that returns nothing or raises. */
  datatype Outcome<+E> = Pass | Fail(error: E)
}
